=== FILE: README.md ===
# fioctl decision cores in Dafny

This project models three pure decision cores of `fioctl`, the command-line client of the Foundries.io
Factory:

- **Wave creation** (`fioctl wave init <wave> <version> <tag>`). The command derives a new production TUF
  targets document from the CI targets of one version and the current production targets of one tag. It
  checks that the version strictly increases. It rejects CI target names already in production. It applies
  the optional `--source-tag` filter. It rewrites each promoted target's opaque `custom` annotation so that
  `tags` is exactly `[tag]`. It prunes the `--prune` version labels, reporting every unmatched label in one
  error. It then picks the offline `targets` key that signs the document. After submitting the wave it
  runs the advisory static-delta check over the CI targets as the merge loop rewrote them.
- **Applying staged TUF root updates** (`fioctl keys tuf updates apply`). The command sorts the apply
  call's result into one of four outcomes: applied, no updates in progress, non-fatal (the operator may
  re-run or cancel) and critical (possibly partially applied; the operator must re-run, never cancel).
- **Static-delta "from" versions** (`fioctl targets static-deltas`). `findVersions` collects from-versions
  out of the Factory's tag statuses. The command also checks the explicit arguments and concatenates the
  lists.

Every network call is replaced by a parameter that holds what it returned: the CI and production targets,
the root document, the online key, the offline key IDs, the Factory status and the apply result with its
re-query. Where the tool calls `DieNotNil`, the model returns an `Err`. Go visits maps in an unspecified
order. Where that order matters to which error comes first, it is an explicit `order` parameter that lists
the map's keys. Lemmas show that whether the command succeeds, and what it produces, do not depend on it.

Modules: `Wrappers` (result types), `Text` (substrings, `strings.Join`/`strings.Split`), `Decimal`
(`strconv.ParseInt`/`Atoi`/`Itoa`), `Tuf` (targets, files, root), `Custom` (the `custom` annotation),
`Waves` (wave errors and payload), `WaveMerge`, `WavePrune`, `WaveSigner`, `WaveInit`, `TufUpdatesApply`,
`StaticDeltas`.

Behaviour of the code that the model keeps on purpose:

- An empty CI target set is an error (`subcommands/waves/init.go:78-80`). `InitWaveNothingSelected` states
  what happens instead when the CI set is non-empty but the source tag selects nothing: the production
  targets carry over unchanged.
- Exactly one offline key signs (`keys.FindOneTufSigner`, `subcommands/waves/init.go:224-226`).
- A 404 whose re-query shows no transaction still exits through `DieNotNil` with "There are no TUF root
  updates in progress." (`subcommands/keys/tuf_updates_apply.go:41-43`). It is a separate outcome
  (`NoUpdatesInProgress`), not a success.
- A failed prune is never submitted: the error aborts the command before signing. The model returns only the
  error, so no partly pruned document exists. A label requested twice is reported as missing on its second
  request, because the first request already deleted its targets.

## Model

| member | source | states |
|---|---|---|
| `Decimal.ScanDigits` | subcommands/waves/init.go:65-66 | The digit loop accepts exactly the all-digit strings whose value fits `maxVal`, returns that value, and reports only range errors on all-digit input |
| `Decimal.ParseInt` | subcommands/waves/init.go:65-66 | `ParseInt(s, 10, bitSize)` succeeds exactly on an optional sign followed by digits whose value lies in the signed `bitSize`-bit range, and returns that value |
| `Decimal.Atoi` | subcommands/targets/deltas.go:66-67 | `Atoi` is the 64-bit case: success exactly on decimal text whose value fits 64 bits, returning its value; decimal text that does not fit is a range error |
| `Decimal.FormatNat` | subcommands/targets/deltas.go:79 | The digits printed for a natural number are non-empty decimal digits without a leading zero that denote exactly that number |
| `Decimal.FormatInt` | subcommands/targets/deltas.go:79 | `%d` printing yields decimal text that denotes the number, with no `+`, a `-` exactly for negative numbers, and no leading zero unless the number is 0 |
| `Decimal.ParseFormat` | subcommands/targets/deltas.go:76-77 | Parsing the printed form of any in-range number gives that number back |
| `Text.SplitJoin` | subcommands/waves/init.go:197 | Splitting `strings.Join(parts, ",")` on commas gives back the parts when none contains a comma |
| `Text.Join` | subcommands/waves/init.go:197 | Every part occurs in the joined text |
| `Custom.DecodeStrings` | subcommands/waves/init.go:105-108 | A JSON array decodes to `[]string` exactly when every element is a string or null, element by element, with null read as "" |
| `Custom.TargetCustom` | subcommands/waves/init.go:105-106 | `api.TargetCustom` fails on unreadable annotations, gives the zero value for `null`, and on an object succeeds exactly when `tags`, `version` and `delta-stats` each decode. It then reads the version string ("" when absent or null), has statistics exactly when `delta-stats` holds an object, and reads the tags array element by element ([] when absent or null) |
| `Custom.ReplaceTags` | subcommands/waves/init.go:257-271 | The rewrite succeeds exactly on a JSON object; the result has the input's keys plus `tags`, `tags` is `[tag]`, and every other key keeps its value |
| `Custom.ReplaceTagsIdempotent` | subcommands/waves/init.go:257-271 | Rewriting the tags twice with the same tag equals rewriting once |
| `Custom.ReplaceTagsDecodes` | subcommands/waves/init.go:257-271 | Read through `api.TargetCustom`, a rewritten annotation has tags `[tag]` and the same version label and delta statistics as before |
| `Custom.ReplaceTagsReadBack` | subcommands/waves/init.go:257-271 | Read through `api.TargetCustom`, a rewritten object decodes exactly when its version label and statistics decode, whatever its old `tags` held, and then has tags `[tag]` and the old label and statistics |
| `Custom.ReplaceFileTags` | subcommands/waves/init.go:118 | Rewriting a target file changes only its annotation; length and hashes are kept |
| `Waves.PruneMessageListsLabels` | subcommands/waves/init.go:196-198 | The prune error message is the fixed prefix followed by the unmatched labels joined by ",", and the label list can be read back from it |
| `Waves.MessageNamesPayload` | subcommands/waves/init.go:79-118 | Each message names its subject: the version without targets, the clashing target and its tag, the target whose annotation is malformed, and (through `PruneMessageNamesLabels`) every label that matched nothing |
| `Waves.PruneMessageNamesLabels` | subcommands/waves/init.go:197 | Every unmatched label occurs in the prune error message |
| `WaveMerge.Promote` | subcommands/waves/init.go:118-119 | A promoted CI target keeps its length, hashes and every annotation key except `tags`, which becomes `[tag]` |
| `WaveMerge.PromotedPicksTag` | subcommands/waves/init.go:104-119 | The `--source-tag` filter (`Picks`: no filter, or the decoded tags contain the source tag) selects a promoted target by its new tag and by no other non-empty tag |
| `WaveMerge.MergeInOrder` | subcommands/waves/init.go:99-120 | Each error the loop stops with is justified: a name-clash error names a CI target that, for distinct names, is already in the accumulated (production) map; a decode error needs a source tag and an undecodable CI annotation; a malformed-custom error names a selected target whose annotation is not an object. Production keys are never lost |
| `WaveMerge.MergeInOrderMeaning` | subcommands/waves/init.go:99-120 | For distinct names in any order, the loop succeeds exactly when there is no clash with the accumulated map, no undecodable annotation under a source tag and no selected non-object annotation; it then adds exactly the promoted selection |
| `WaveMerge.MergeOrderIndependent` | subcommands/waves/init.go:99-120 | For every order that enumerates the CI targets, success and the merged map are the same: production plus the promoted selection |
| `WaveMerge.MergeRejectsExisting` | subcommands/waves/init.go:99-103 | A CI target whose name is already in production makes the merge fail, even one the source-tag filter would skip |
| `WaveMerge.MergeContents` | subcommands/waves/init.go:92 | On success the merged keys are the production keys plus exactly the CI targets the source tag selects (all of them with no source tag); production entries are unchanged and each selected one is its promoted copy |
| `WavePrune.PruneLabel` | subcommands/waves/init.go:184-191 | One inner pass fails exactly when some remaining annotation does not decode. Otherwise it keeps exactly the targets whose label is not the requested one, and reports a match exactly when it deleted something |
| `WavePrune.PruneLoop` | subcommands/waves/init.go:181-199 | The outer loop only deletes targets and never changes the kept ones. It fails with a decode error or with a non-empty label list that extends the labels missing so far with requested ones, and it succeeds only when nothing is missing |
| `WavePrune.PruneTargets` | subcommands/waves/init.go:180-201 | A successful prune keeps a subset of the targets, unchanged. A failure is a decode error or a non-empty list of requested labels |
| `WavePrune.MissingAreUnmatched` | subcommands/waves/init.go:192-194 | A label is reported exactly when one of its requests matched no target, either because no target carries the label or because an earlier request of it already deleted them |
| `WavePrune.KeptStep` | subcommands/waves/init.go:184-190 | One pass of the inner loop over the targets kept so far deletes the targets with the next label, and it reports a match exactly when that request is not unmatched |
| `WavePrune.MissingStep` | subcommands/waves/init.go:192-194 | Each request adds its label to the missing list exactly when it is unmatched |
| `WavePrune.PruneLoopMeaning` | subcommands/waves/init.go:181-199 | After any number of requests, the loop's map is the targets whose label was not yet requested, and its missing list is the unmatched requests so far. At the end it fails with the full missing list or returns the kept targets |
| `WavePrune.PruneTargetsMeaning` | subcommands/waves/init.go:180-201 | `pruneTargets` fails on an undecodable annotation. Otherwise it fails with exactly the unmatched labels, in request order, or succeeds with exactly the targets whose label is not requested |
| `WavePrune.PruneRemovesExactly` | subcommands/waves/init.go:184-191 | After a successful prune no remaining target carries a requested label, and every target with another label is still there, unchanged |
| `WavePrune.PruneReportsUnknownLabels` | subcommands/waves/init.go:192-198 | A requested label that no target carries makes the prune fail with an error whose label list includes it |
| `WaveSigner.OfflineKeyIds` | subcommands/waves/init.go:209-217 | The candidates are exactly the role's key IDs whose public key differs from the online public key |
| `WaveSigner.OfflineKeyIdsAppend` | subcommands/waves/init.go:211-217 | The candidate filter distributes over concatenation, so candidates appear in role order |
| `WaveSigner.SignerKeyIds` | subcommands/waves/init.go:209-222 | The configuration error occurs exactly when every `targets` key is the online key; otherwise the candidates are returned, in role order and non-empty |
| `WaveSigner.SignerKeyIdsAsWritten` | subcommands/waves/init.go:210 | The code as written panics exactly when the `targets` role lists no key ID, and otherwise behaves like `SignerKeyIds` |
| `WaveSigner.EmptyTargetsRolePanics` | subcommands/waves/init.go:210-222 | For a root whose `targets` role is empty, the code as written panics, while the intended result is the configuration error |
| `WaveSigner.FindOneSigner` | subcommands/waves/init.go:224-225 | The signer is the first candidate held offline; the lookup fails exactly when no candidate is held offline |
| `WaveSigner.SelectSigner` | subcommands/waves/init.go:203-225 | The chosen key is a `targets` key, is held offline and is not the online key; a key is chosen exactly when such a key exists |
| `WaveSigner.SignerExample` | subcommands/waves/init.go:209-225 | With key IDs [A, B, C] and B online, the candidates are [A, C], and with only C offline C signs |
| `WaveInit.PruneStep` | subcommands/waves/init.go:122-127 | Without `--prune` nothing is pruned; pruning the version being promoted is an error; otherwise it is `pruneTargets` |
| `WaveInit.BuildTargets` | subcommands/waves/init.go:99-127 | Every built target is an unchanged production target or the promoted copy of a selected CI target. A pruning build never prunes the promoted version. Failures are clashes, decode errors, malformed annotations or prune errors; which one comes back is stated by `BuildTargetsErrors` |
| `WaveInit.BuildTargetsMeaning` | subcommands/waves/init.go:99-127 | A successful build is production plus the promoted selection, without pruning or minus every requested label (all matched), and the promoted version is not among the labels |
| `WaveInit.BuildTargetsErrors` | subcommands/waves/init.go:99-127 | A failed merge loop's error is the build's error. After a clean merge, `--prune` naming the promoted version gives "Cannot prune current version", an undecodable merged annotation gives the custom-field error, and otherwise the error lists exactly the unmatched labels in request order |
| `WaveInit.BuildTargetsSucceeds` | subcommands/waves/init.go:99-127 | The build succeeds exactly when the merge meets no clash, no undecodable annotation under a source tag and no selected non-object annotation, and, with `--prune`, the promoted version is not pruned, every merged annotation decodes and every label matches |
| `WaveInit.BuildTargetsOrderIndependent` | subcommands/waves/init.go:99-127 | Success of merge plus prune, and the resulting targets, are the same for every iteration order |
| `WaveInit.InitWave` | subcommands/waves/init.go:65-151 | A non-integer version is an error carrying the `ParseInt` failure; so, once the version parsed, are an empty CI set and a version not above production. After those checks a failed build or signer lookup is reported with that step's own error. A created wave carries the requested name, version, tag and expiry, the parsed version above production, no prune of itself, and a `targets` signer that is held offline and is not online |
| `WaveInit.InitWaveReportsUnmatched` | subcommands/waves/init.go:121-127 | Once the earlier checks pass and the merged annotations decode, `wave init` with `--prune` labels that match nothing fails with exactly those labels, in request order (the list `Unable to prune the following versions:` prints) |
| `WaveInit.InitWaveSucceeds` | subcommands/waves/init.go:62-131 | A wave is created exactly when none of the checks fires: the version is a 32-bit integer, there are CI targets, the version is above production, merge and prune go through, and an offline `targets` key other than the online one exists |
| `WaveInit.InitWaveExample` | subcommands/waves/init.go:62-131 | `wave init wave-16 16 production` over production version 10 with `app-v10` and CI target `app-v16` tagged `ci`, with key A offline and B online: the wave has version 16, holds both targets, `app-v16` reads back tagged `production`, and A signs |
| `WaveInit.ExampleVersionParses` | subcommands/waves/init.go:65-66 | The version argument "16" parses as the 32-bit integer 16 |
| `WaveInit.CreateWave` | subcommands/waves/init.go:76-131 | After the version has parsed: no CI targets and a version not above production are errors, and after them a failed build or signer lookup is reported with that step's own error; a created wave carries the requested fields, the parsed version, no prune of itself, and a `targets` signer that is held offline and is not online |
| `WaveInit.CreateWaveSucceeds` | subcommands/waves/init.go:76-131 | Once the version has parsed, a wave is created exactly when there are CI targets, the version is above production, the build succeeds and some `targets` key other than the online one is held offline |
| `WaveInit.CreateWaveOrderIndependent` | subcommands/waves/init.go:99-120 | After the version has parsed, whether a wave is created, and the wave itself, are the same for every CI iteration order |
| `WaveInit.InitWaveTargets` | subcommands/waves/init.go:85-127 | A created wave's targets are production (or none) plus the promoted selection, minus the pruned labels, all of which matched |
| `WaveInit.InitWaveOrderIndependent` | subcommands/waves/init.go:99-120 | Whether a wave is created, and the wave itself, are the same for every CI iteration order |
| `WaveInit.InitWaveRejectsExisting` | subcommands/waves/init.go:99-103 | A CI target already in the tag's production targets stops wave creation |
| `WaveInit.InitWaveFirstWave` | subcommands/waves/init.go:89-90 | Without production targets and without pruning, the new document holds exactly the selected CI targets |
| `WaveInit.InitWaveNothingSelected` | subcommands/waves/init.go:85-97 | When the source tag selects no CI target, the production targets carry over unchanged |
| `WaveInit.HasStaticDelta` | subcommands/waves/init.go:169-178 | The advisory returns true only if every visited target decodes with delta statistics, and false only if some visited target lacks them. It fails only on an undecodable annotation, and cannot fail when all decode |
| `WaveInit.HasStaticDeltaMeaning` | subcommands/waves/init.go:169-178 | When every CI annotation decodes, the advisory answers, for any order, whether every CI target has delta statistics |
| `WaveInit.RewrittenCi` | subcommands/waves/init.go:99-119 | The advisory sees the CI targets after the merge loop: the same names, each promoted target with its rewritten annotation and every other target untouched |
| `WaveInit.StaticDeltaWarning` | subcommands/waves/init.go:154-165 | The advisory over the rewritten CI targets fails only on an annotation that does not decode as rewritten. It warns only if some rewritten target lacks statistics, and stays silent only if all decode with statistics |
| `WaveInit.InitWaveCommand` | subcommands/waves/init.go:62-166 | The command submits a wave exactly when `InitWave` builds one and otherwise stops with its error. After submission the advisory runs on the rewritten CI targets, and its failure does not undo the wave. A submitted wave had every selected CI annotation a JSON object |
| `WaveInit.RewrittenReadsBack` | subcommands/waves/init.go:169-178 | Without a source tag, a CI target's rewritten annotation decodes exactly when its version label and statistics do, and has statistics exactly when the listed one had them |
| `WaveInit.StaticDeltaWarningNoSourceTag` | subcommands/waves/init.go:154-178 | Without a source tag, when every version label and statistics field decodes, the advisory warns exactly when some CI target lacks statistics. It fails only when one of those fields does not decode, whatever the old `tags` fields held |
| `WaveInit.StaticDeltaSeesRewrite` | subcommands/waves/init.go:257-271 | A CI target whose `tags` is a bare string fails `hasStaticDelta` as listed, yet after promotion the advisory decodes it and stays silent |
| `TufUpdatesApply.Classify` | subcommands/keys/tuf_updates_apply.go:33-63 | Success exactly on no error. "No updates" exactly on 404 with a clean `None` re-query. Non-fatal exactly on 400/401/403/422/423. Critical on every other status (404 included otherwise) and on every non-HTTP error. Both failure messages wrap the original error before their advice |
| `TufUpdatesApply.ClassifySteps` | subcommands/keys/tuf_updates_apply.go:45-56 | A non-fatal failure offers both re-running apply and cancelling. A critical one offers re-running and never cancelling. Success and "no updates" offer no steps |
| `TufUpdatesApply.FailureMessageParts` | subcommands/keys/tuf_updates_apply.go:35 | A failure message contains the original error text, the advice header and each advice line |
| `TufUpdatesApply.AdviceMentions` | subcommands/keys/tuf_updates_apply.go:48-56 | The advice lines name the apply command, the cancel command and "re-run"; the critical header says "partially applied" |
| `TufUpdatesApply.ClassifyMessages` | subcommands/keys/tuf_updates_apply.go:35-58 | Every failure message contains the original error. The non-fatal one names both the apply and the cancel command. The critical one says "partially applied" and "re-run" |
| `TufUpdatesApply.RequeryOnlyAfter404` | subcommands/keys/tuf_updates_apply.go:38-44 | The status re-query affects the outcome only after an HTTP 404 |
| `TufUpdatesApply.NotFoundWithoutCleanStatusIsFatal` | subcommands/keys/tuf_updates_apply.go:38-47 | A 404 whose re-query fails, or shows a transaction in progress, is critical |
| `StaticDeltas.EligibleAppend` | subcommands/targets/deltas.go:53-57 | The version filter distributes over concatenation, so versions are kept in input order |
| `StaticDeltas.EligibleMembers` | subcommands/targets/deltas.go:53-57 | Every returned version is below `maxVer` and belongs to a non-orphan target; every such target's version is returned |
| `StaticDeltas.Lookup` | subcommands/targets/deltas.go:51-52 | The status found is the first one with the tag name; none is found exactly when no status has the name |
| `StaticDeltas.FindVersions` | subcommands/targets/deltas.go:49-62 | `findVersions` reports found exactly when some status has the tag. It returns (false, empty) otherwise, and else the eligible versions of the first matching status only |
| `StaticDeltas.Values` | subcommands/targets/deltas.go:75-81 | The explicit from-versions are the numbers the arguments denote, one per argument, in order |
| `StaticDeltas.ParseFrom` | subcommands/targets/deltas.go:76-80 | One explicit argument is accepted exactly when it is a number below the to-version, giving that number. A rejection carries the argument and its parse failure, or the number with the to-version when it is not older |
| `StaticDeltas.CheckFromsAccepts` | subcommands/targets/deltas.go:75-82 | Checking the explicit arguments left to right succeeds exactly when every argument is a number below the to-version |
| `StaticDeltas.CheckFromsValues` | subcommands/targets/deltas.go:75-82 | A successful check yields the numbers the arguments denote, in argument order |
| `StaticDeltas.CheckFromsRejects` | subcommands/targets/deltas.go:75-80 | A failed check reports the error of the first argument that is not a number below the to-version; every earlier argument passed |
| `StaticDeltas.ExplicitFroms` | subcommands/targets/deltas.go:74-82 | The loop follows the left-to-right check: it succeeds exactly when every argument is a number below the to-version, then yields their values in order, and otherwise stops with the first failing argument's error |
| `StaticDeltas.ByTagFroms` | subcommands/targets/deltas.go:87-98 | The `--by-tag` lookup gives none when neither tag list has the tag, and otherwise the CI versions followed by the production versions |
| `StaticDeltas.TagFroms` | subcommands/targets/deltas.go:87-98 | The `--by-tag` lookup gives none exactly when neither tag list has a status with the tag, and every version it adds is below the to-version |
| `StaticDeltas.FoundVersions` | subcommands/targets/deltas.go:92-97 | A found tag contributes only versions below the to-version, and a missing one contributes none |
| `StaticDeltas.DoDeltas` | subcommands/targets/deltas.go:66-101 | A bad to-version is an error carrying the parse failure. When an explicit from-version is rejected, the error is exactly that of the first failing argument: its parse failure, or the number with the to-version when it is not older, and any explicit from-version at or above the to-version is rejected. Once the explicit versions pass, an unknown `--by-tag` tag is the "No tags named" error for that tag, and it is the only way to get that error. With no explicit from-version and no tag or an empty tag list, the error is "No Targets found to generate deltas for.", and that is the only case that gives it. Valid explicit from-versions with a known tag succeed whenever they or the tag give at least one version. On success the list is the explicit values, then the CI versions, then the production versions, with no deduplication; it is non-empty and every element is below the to-version |
| `StaticDeltas.MessageNamesCause` | subcommands/targets/deltas.go:66-90 | Each message names its subject: the argument that is not a number, both versions of a from-version that is not older, the unknown tag |

## Left out

- Network calls (`api.TargetsList`, `api.ProdTargetsGet`, `api.TufRootGet`, `api.TufTargetsOnlineKey`,
  `api.FactoryCreateWave`, `api.TufRootUpdatesApply`, `api.FactoryStatus`, `api.TargetDeltasCreate`,
  `api.JobservTail`): their results are parameters, and their own failures are left out. The exception is
  the apply command's status re-query, whose failure decides an outcome.
- Canonical JSON (`json.MarshalCanonical`), signing (`keys.SignTufMeta`) and loading the offline
  credentials (`keys.GetOfflineCreds`) are external libraries. The offline credentials are the set of key IDs
  they hold, and a wave records the key ID that signs it.
- `readExpiration` depends on the clock and on RFC 3339 parsing. The expiry is a parameter in whole seconds,
  since the code rounds it to the nearest second (`subcommands/waves/init.go:247`).
- `WaveInit.InitWave`: an invalid `--expires-at` value (`subcommands/waves/init.go:67`, 235-236) and an
  offline credentials file that cannot be read (`subcommands/waves/init.go:71`, 251-253) end the command
  after the version parses and before the CI targets are listed. The model takes both as already-read
  parameters, so these two failures are not modelled.
- `WaveInit.InitWave`: the signer is chosen by the corrected `WaveSigner.SignerKeyIds`. For a root whose
  `targets` role lists no key IDs the code as written panics instead (see "Findings"); the model reports
  the configuration error.
- `WaveInit.CreateWave`: the same two points apply; it uses the corrected signer selection.
- `WaveInit.InitWaveCommand`: submission (`api.FactoryCreateWave`) and dry-run printing are not modelled,
  so a failed submission is not an outcome. The advisory runs in both cases, as the model has it.
- `StaticDeltas.Message`: `strconv.Atoi` quotes a bad argument with Go's `%q` escaping; the model puts it
  between plain double quotes.
- `Waves.Message`: `BadVersion` carries the `strconv.ParseInt` failure (invalid syntax or out of range), but the message gives only "Version must be an integer". `subcommands.DieNotNil`, which prints the Go error text alongside it, is not part of this model.
- `Waves.Message`: the texts of a JSON decode error and of `keys.ErrMsgReadingTufKey` come from code that is
  not part of this model; the model uses fixed descriptive texts for them.
- Dry-run printing, the static-delta warning text, logging, cobra flag parsing and `os.Exit` are output and
  process plumbing.
- `Custom.TargetCustom`: `client.TufCustom` is not part of this model. The model assumes it reads `tags` as a
  string list, `version` as a string and `delta-stats` as an optional object, with exact key names.
  Every other key is ignored. The real struct has further typed fields, so an annotation where one of
  them holds the wrong JSON kind fails to decode in Go but decodes in the model.
  `encoding/json`'s case-insensitive key matching is not modelled, and any object under `delta-stats` counts
  as statistics.
- `Custom.ReplaceTags`: JSON numbers are exact integers, so the `float64` round trip Go applies to numbers in
  other keys is not modelled. A `null` annotation decodes to a nil Go map, and writing `tags` into it panics;
  the model reports this as an error. A missing `custom` field, which Go dereferences and panics on, is folded
  into `Unreadable`.
- `WaveSigner.FindOneSigner`: `keys.FindOneTufSigner` is not part of this model. It is modelled as the first
  candidate key ID present in the offline credentials.
- `WaveSigner.TargetsKeyIds`: the root's role and key maps are assumed to hold values directly. A missing
  `targets` role reads as no key IDs, and a missing key reads as an empty public key.
- `TufUpdatesApply.ClassifySteps`: "the critical message never suggests cancel" is proved over the advice
  steps the message is built from, not character by character over the message text, which can also contain
  the server's error text.
- Devices, EdgeLock 2GO, login and self-update commands are REST or platform I/O with no decision core.

## Findings

| source | as written | input that shows it | evidently intended | confidence | as-written member | corrected member |
|---|---|---|---|---|---|---|
| subcommands/waves/init.go:210 | `make([]string, 0, len(targetsKids)-1)` has a negative capacity when the `targets` role lists no key IDs, so Go panics with "makeslice: cap out of range" | a root whose `targets` role has key IDs `[]` (or no `targets` role) | report "Root role is not configured to sign Targets offline" (lines 219-222) | not executed; medium (a server root normally lists targets keys) | `WaveSigner.SignerKeyIdsAsWritten`, `WaveSigner.EmptyTargetsRolePanics` | `WaveSigner.SignerKeyIds` |

=== FILE: custom.dfy ===
/** The two readings of a target's `custom` annotation: the typed view `api.TargetCustom` decodes
    (tags, version label, static-delta statistics), and the opaque map `replaceTags` rewrites. */
module Custom {
  import opened Wrappers
  import opened Tuf

  const TagsKey: string := "tags"
  const VersionKey: string := "version"
  const DeltaStatsKey: string := "delta-stats"

  /** The fields of `client.TufCustom` the commands read. */
  datatype TufCustom = TufCustom(tags: seq<string>, version: string, hasDeltaStats: bool)

  datatype CustomError = Undecodable

  /** A JSON array decoded into `[]string`: `null` elements become the empty string. */
  function DecodeStrings(items: seq<Value>): (r: Result<seq<string>, CustomError>)
    ensures r.Ok? <==> forall i :: 0 <= i < |items| ==> items[i].Str? || items[i].Null?
    ensures r.Ok? ==> |r.value| == |items|
    ensures r.Ok? ==> forall i :: 0 <= i < |items| ==>
      r.value[i] == (if items[i].Str? then items[i].s else "")
  {
    if |items| == 0 then Ok([])
    else
      var head := if items[0].Str? then Ok(items[0].s) else if items[0].Null? then Ok("") else Err(Undecodable);
      match head
      case Err(e) => Err(e)
      case Ok(h) =>
        match DecodeStrings(items[1..])
        case Err(e) => Err(e)
        case Ok(t) => Ok([h] + t)
  }

  function DecodeTags(m: map<string, Value>): Result<seq<string>, CustomError>
  {
    if TagsKey !in m then Ok([])
    else match m[TagsKey]
      case Null => Ok([])
      case Array(items) => DecodeStrings(items)
      case _ => Err(Undecodable)
  }

  function DecodeVersion(m: map<string, Value>): Result<string, CustomError>
  {
    if VersionKey !in m then Ok("")
    else match m[VersionKey]
      case Null => Ok("")
      case Str(s) => Ok(s)
      case _ => Err(Undecodable)
  }

  /** Whether the `delta-stats` field ends up non-nil. */
  function DecodeDeltaStats(m: map<string, Value>): Result<bool, CustomError>
  {
    if DeltaStatsKey !in m then Ok(false)
    else match m[DeltaStatsKey]
      case Null => Ok(false)
      case Object(_) => Ok(true)
      case _ => Err(Undecodable)
  }

  /** `api.TargetCustom`: the typed view of a custom annotation. Keys it does not know are ignored;
      a missing key or a `null` leaves the zero value; a known key of the wrong JSON kind is an error. */
  function TargetCustom(raw: RawCustom): (r: Result<TufCustom, CustomError>)
    ensures raw.Unreadable? ==> r.Err?
    ensures raw.JsonNull? ==> r == Ok(TufCustom([], "", false))
    ensures raw.Fields? ==>
      (r.Ok? <==> DecodeTags(raw.fields).Ok? && DecodeVersion(raw.fields).Ok? && DecodeDeltaStats(raw.fields).Ok?)
    ensures raw.Fields? && r.Ok? ==>
      && r.value.version == (if VersionKey in raw.fields && raw.fields[VersionKey].Str? then raw.fields[VersionKey].s else "")
      && (r.value.hasDeltaStats <==> DeltaStatsKey in raw.fields && raw.fields[DeltaStatsKey].Object?)
      && r.value.tags == (if TagsKey in raw.fields && raw.fields[TagsKey].Array?
                          then DecodeStrings(raw.fields[TagsKey].items).value else [])
  {
    match raw
    case Unreadable => Err(Undecodable)
    case JsonNull => Ok(TufCustom([], "", false))
    case Fields(m) =>
      var tags :- DecodeTags(m);
      var version :- DecodeVersion(m);
      var delta :- DecodeDeltaStats(m);
      Ok(TufCustom(tags, version, delta))
  }

  /** `replaceTags` on the annotation: decode it as a generic map, set `tags` to the single `tag`,
      keep every other key. A `null` annotation decodes to a nil Go map, which cannot be written to. */
  function ReplaceTags(raw: RawCustom, tag: string): (r: Result<RawCustom, CustomError>)
    ensures r.Ok? <==> raw.Fields?
    ensures r.Ok? ==> r.value.Fields?
    ensures r.Ok? ==> r.value.fields.Keys == raw.fields.Keys + {TagsKey}
    ensures r.Ok? ==> r.value.fields[TagsKey] == Array([Str(tag)])
    ensures r.Ok? ==> forall k :: k in raw.fields && k != TagsKey ==> r.value.fields[k] == raw.fields[k]
  {
    match raw
    case Fields(m) => Ok(Fields(m[TagsKey := Array([Str(tag)])]))
    case _ => Err(Undecodable)
  }

  /** Rewriting twice with the same tag is the same as rewriting once. */
  lemma ReplaceTagsIdempotent(raw: RawCustom, tag: string)
    requires raw.Fields?
    ensures ReplaceTags(ReplaceTags(raw, tag).value, tag) == ReplaceTags(raw, tag)
  {
    var once := ReplaceTags(raw, tag).value;
    assert once.fields[TagsKey := Array([Str(tag)])] == once.fields;
  }

  /** Seen through `api.TargetCustom`, a rewritten annotation has exactly the one tag and the
      same version label and static-delta statistics as before. */
  lemma ReplaceTagsDecodes(raw: RawCustom, tag: string)
    requires raw.Fields? && TargetCustom(raw).Ok?
    ensures TargetCustom(ReplaceTags(raw, tag).value) == Ok(TargetCustom(raw).value.(tags := [tag]))
  {
    var m' := ReplaceTags(raw, tag).value.fields;
    assert DecodeVersion(m') == DecodeVersion(raw.fields);
    assert DecodeDeltaStats(m') == DecodeDeltaStats(raw.fields);
    var d := DecodeStrings([Str(tag)]);
    assert d.Ok? && d.value[0] == tag;
    assert d.value == [tag];
  }

  /** Seen through `api.TargetCustom`, a rewritten object decodes exactly when its version label and
      static-delta statistics do, whatever its old `tags` held. */
  lemma ReplaceTagsReadBack(raw: RawCustom, tag: string)
    requires raw.Fields?
    ensures var c := TargetCustom(ReplaceTags(raw, tag).value);
      && (c.Ok? <==> DecodeVersion(raw.fields).Ok? && DecodeDeltaStats(raw.fields).Ok?)
      && (c.Ok? ==> c.value == TufCustom([tag], DecodeVersion(raw.fields).value, DecodeDeltaStats(raw.fields).value))
  {
    var m' := ReplaceTags(raw, tag).value.fields;
    assert DecodeVersion(m') == DecodeVersion(raw.fields);
    assert DecodeDeltaStats(m') == DecodeDeltaStats(raw.fields);
    var d := DecodeStrings([Str(tag)]);
    assert d.Ok? && d.value[0] == tag;
    assert d.value == [tag];
  }

  /** `replaceTags` on a whole target file: only the annotation changes. */
  function ReplaceFileTags(file: FileMeta, tag: string): (r: Result<FileMeta, CustomError>)
    ensures r.Ok? <==> file.custom.Fields?
    ensures r.Ok? ==> r.value.length == file.length && r.value.hashes == file.hashes
    ensures r.Ok? ==> r.value.custom == ReplaceTags(file.custom, tag).value
  {
    match ReplaceTags(file.custom, tag)
    case Err(e) => Err(e)
    case Ok(c) => Ok(file.(custom := c))
  }
}

=== FILE: decimal.dfy ===
/** Base-10 integer parsing as `strconv.ParseInt(s, 10, bitSize)` does it (`strconv.Atoi` is the
    64-bit case), and the matching formatter `strconv.Itoa`. */
module Decimal {
  import opened Wrappers

  datatype NumError = InvalidSyntax | OutOfRange

  predicate IsDigit(c: char) {
    '0' <= c <= '9'
  }

  function DigitValue(c: char): nat
    requires IsDigit(c)
  {
    (c as int) - ('0' as int)
  }

  predicate AllDigits(s: string) {
    forall i :: 0 <= i < |s| ==> IsDigit(s[i])
  }

  /** The number a string of decimal digits denotes, most significant digit first. */
  function DigitsValue(s: string): nat
    requires AllDigits(s)
  {
    if |s| == 0 then 0 else DigitsValue(s[..|s| - 1]) * 10 + DigitValue(s[|s| - 1])
  }

  function Pow2(k: nat): (p: nat)
    ensures p >= 1 && p > k
  {
    if k == 0 then 1 else 2 * Pow2(k - 1)
  }

  /** The text after an optional leading sign. */
  function Unsigned(s: string): string
  {
    if |s| > 0 && (s[0] == '+' || s[0] == '-') then s[1..] else s
  }

  /** An optional `+` or `-` followed by at least one decimal digit. */
  predicate IsDecimal(s: string) {
    |Unsigned(s)| > 0 && AllDigits(Unsigned(s))
  }

  function DecimalValue(s: string): int
    requires IsDecimal(s)
  {
    if s[0] == '-' then -(DigitsValue(Unsigned(s)) as int) else DigitsValue(Unsigned(s))
  }

  /** The range of a signed two's-complement integer of `bitSize` bits. */
  predicate InIntRange(n: int, bitSize: nat)
    requires bitSize >= 1
  {
    -(Pow2(bitSize - 1) as int) <= n < Pow2(bitSize - 1)
  }

  /** A prefix of a digit string denotes at most what the whole string does. */
  lemma {:induction false} PrefixValueBounded(s: string, j: nat)
    requires j <= |s|
    ensures AllDigits(s) ==> AllDigits(s[..j]) && DigitsValue(s[..j]) <= DigitsValue(s)
    decreases |s|
  {
    if !AllDigits(s) {
    } else if j < |s| {
      assert s[..|s| - 1][..j] == s[..j];
      PrefixValueBounded(s[..|s| - 1], j);
    } else {
      assert s[..j] == s;
    }
  }

  /** The digit loop of `strconv.ParseUint`: it stops with a syntax error at the first non-digit and with
      a range error as soon as the value read so far exceeds `maxVal`. */
  function ScanDigits(s: string, i: nat, acc: nat, maxVal: nat): (r: Result<nat, NumError>)
    requires i <= |s| && AllDigits(s[..i]) && acc == DigitsValue(s[..i]) && acc <= maxVal
    ensures r.Ok? ==> AllDigits(s) && r.value == DigitsValue(s) && r.value <= maxVal
    ensures AllDigits(s) && DigitsValue(s) <= maxVal ==> r.Ok?
    ensures AllDigits(s) && r.Err? ==> r.error == OutOfRange
    decreases |s| - i
  {
    if i == |s| then
      assert s[..i] == s;
      Ok(acc)
    else if !IsDigit(s[i]) then
      Err(InvalidSyntax)
    else
      assert s[..i + 1][..i] == s[..i];
      var next := acc * 10 + DigitValue(s[i]);
      if next > maxVal then
        PrefixValueBounded(s, i + 1);
        Err(OutOfRange)
      else
        ScanDigits(s, i + 1, next, maxVal)
  }

  /** `strconv.ParseInt(s, 10, bitSize)`. */
  function ParseInt(s: string, bitSize: nat): (r: Result<int, NumError>)
    requires 1 <= bitSize
    ensures r.Ok? <==> IsDecimal(s) && InIntRange(DecimalValue(s), bitSize)
    ensures r.Ok? ==> r.value == DecimalValue(s)
    ensures IsDecimal(s) && r.Err? ==> r.error == OutOfRange
  {
    if |s| == 0 then Err(InvalidSyntax)
    else
      var neg := s[0] == '-';
      var digits := Unsigned(s);
      if |digits| == 0 then Err(InvalidSyntax)
      else
        assert digits[..0] == [];
        match ScanDigits(digits, 0, 0, Pow2(bitSize) - 1)
        case Err(e) => Err(e)
        case Ok(u) =>
          var cutoff := Pow2(bitSize - 1);
          if !neg && u >= cutoff then Err(OutOfRange)
          else if neg && u > cutoff then Err(OutOfRange)
          else Ok(if neg then -(u as int) else u)
  }

  /** `strconv.Atoi` on a 64-bit platform: `ParseInt(s, 10, 64)`. */
  function Atoi(s: string): (r: Result<int, NumError>)
    ensures r.Ok? <==> IsDecimal(s) && InIntRange(DecimalValue(s), 64)
    ensures r.Ok? ==> r.value == DecimalValue(s)
    ensures IsDecimal(s) && r.Err? ==> r.error == OutOfRange
  {
    ParseInt(s, 64)
  }

  function DigitChar(d: nat): (c: char)
    requires d < 10
    ensures IsDigit(c) && DigitValue(c) == d
  {
    ('0' as int + d) as char
  }

  /** The decimal digits of `n` without leading zeros. */
  function FormatNat(n: nat): (s: string)
    ensures |s| > 0 && AllDigits(s) && DigitsValue(s) == n
    ensures s[0] == '0' ==> n == 0
  {
    if n < 10 then [DigitChar(n)]
    else
      var p := FormatNat(n / 10);
      var s := p + [DigitChar(n % 10)];
      assert s[..|s| - 1] == p;
      s
  }

  /** `strconv.Itoa`. */
  function FormatInt(n: int): (s: string)
    ensures IsDecimal(s) && DecimalValue(s) == n
    ensures s[0] != '+' && (s[0] == '-' <==> n < 0) && (Unsigned(s)[0] == '0' ==> n == 0)
  {
    if n < 0 then
      var s := "-" + FormatNat(-n);
      assert Unsigned(s) == FormatNat(-n);
      s
    else
      FormatNat(n)
  }

  /** Parsing what `FormatInt` prints gives the number back, for every number the bit size can hold. */
  lemma ParseFormat(n: int, bitSize: nat)
    requires 1 <= bitSize && InIntRange(n, bitSize)
    ensures ParseInt(FormatInt(n), bitSize) == Ok(n)
  {
  }
}

=== FILE: deltas.dfy ===
/** `fioctl targets static-deltas <to-version> [<from-version>...] [--by-tag <tag>]`: collecting the
    versions to generate static deltas from. The Factory status is fetched by the caller and passed in. */
module StaticDeltas {
  import opened Wrappers
  import opened Decimal
  import Text

  /** A Target version as the Factory status reports it for a tag. */
  datatype TagTarget = TagTarget(version: int, isOrphan: bool)

  datatype TagStatus = TagStatus(name: string, targets: seq<TagTarget>)

  /** The two tag lists of `api.FactoryStatus`: CI tags and production tags. */
  datatype FactoryStatus = FactoryStatus(tags: seq<TagStatus>, prodTags: seq<TagStatus>)

  datatype DeltaError =
    | NotANumber(arg: string, cause: NumError)
    | FromNotOlder(from: int, to: int)
    | NoSuchTag(tag: string)
    | NothingToDo

  const AtoiPrefix: string := "strconv.Atoi: parsing \""
  const AtoiMiddle: string := "\": "
  const FromPrefix: string := "from-version "
  const FromMiddle: string := " is newer than to-version "
  const NoTagPrefix: string := "No tags named '"
  const NoTagSuffix: string := "' found"

  /** The text `DieNotNil` prints for each error. `strconv.Atoi` quotes the argument with `%q`; the
      model writes it between plain double quotes. */
  function Message(e: DeltaError): string
  {
    match e
    case NotANumber(arg, cause) =>
      AtoiPrefix + arg + AtoiMiddle + (if cause == InvalidSyntax then "invalid syntax" else "value out of range")
    case FromNotOlder(from, to) => FromPrefix + FormatInt(from) + FromMiddle + FormatInt(to)
    case NoSuchTag(tag) => NoTagPrefix + tag + NoTagSuffix
    case NothingToDo => "No Targets found to generate deltas for."
  }

  /** Every message names what it is about: the argument that is not a number, both versions of a
      from-version that is not older, the unknown tag. */
  lemma MessageNamesCause(e: DeltaError)
    ensures e.NotANumber? ==> Text.Contains(Message(e), e.arg)
    ensures e.FromNotOlder? ==> Text.Contains(Message(e), FormatInt(e.from)) && Text.Contains(Message(e), FormatInt(e.to))
    ensures e.NoSuchTag? ==> Text.Contains(Message(e), e.tag)
  {
    match e
    case NotANumber(arg, cause) =>
      Text.ContainsMiddle(AtoiPrefix, arg, AtoiMiddle);
      Text.ContainsInLeft(AtoiPrefix + arg + AtoiMiddle,
                          if cause == InvalidSyntax then "invalid syntax" else "value out of range", arg);
    case FromNotOlder(from, to) => Text.ContainsFilled(FromPrefix, FormatInt(from), FromMiddle, FormatInt(to));
    case NoSuchTag(tag) => Text.ContainsMiddle(NoTagPrefix, tag, NoTagSuffix);
    case NothingToDo =>
  }

  /** The request handed to `api.TargetDeltasCreate`. */
  datatype DeltaRequest = DeltaRequest(to: int, froms: seq<int>, hwId: string)

  /** A version devices may be upgraded from: not an orphan, and older than `maxVer`. */
  predicate IsCandidate(t: TagTarget, maxVer: int) {
    !t.isOrphan && t.version < maxVer
  }

  /** The candidate versions of `targets`, in order. */
  function Eligible(targets: seq<TagTarget>, maxVer: int): seq<int>
  {
    if |targets| == 0 then []
    else
      Eligible(targets[..|targets| - 1], maxVer)
      + (if IsCandidate(targets[|targets| - 1], maxVer) then [targets[|targets| - 1].version] else [])
  }

  /** `Eligible` keeps input order: it distributes over concatenation. */
  lemma {:induction false} EligibleAppend(a: seq<TagTarget>, b: seq<TagTarget>, maxVer: int)
    ensures Eligible(a + b, maxVer) == Eligible(a, maxVer) + Eligible(b, maxVer)
    decreases |b|
  {
    if |b| == 0 {
      assert a + b == a;
    } else {
      var b' := b[..|b| - 1];
      assert (a + b)[..|a + b| - 1] == a + b';
      EligibleAppend(a, b', maxVer);
    }
  }

  /** Every returned version is a candidate's version, and every candidate's version is returned. */
  lemma {:induction false} EligibleMembers(targets: seq<TagTarget>, maxVer: int)
    ensures forall v :: v in Eligible(targets, maxVer) ==>
      v < maxVer && exists i :: 0 <= i < |targets| && targets[i].version == v && !targets[i].isOrphan
    ensures forall i :: 0 <= i < |targets| && IsCandidate(targets[i], maxVer) ==> targets[i].version in Eligible(targets, maxVer)
    decreases |targets|
  {
    if |targets| > 0 {
      var init := targets[..|targets| - 1];
      EligibleMembers(init, maxVer);
      forall i | 0 <= i < |init| ensures init[i] == targets[i] { }
    }
  }

  /** The first status named `forTag`. */
  function Lookup(forTag: string, tags: seq<TagStatus>): (r: Option<TagStatus>)
    ensures r.None? <==> forall i :: 0 <= i < |tags| ==> tags[i].name != forTag
    ensures r.Some? ==> exists k :: 0 <= k < |tags| && tags[k] == r.value && tags[k].name == forTag
                                   && (forall j :: 0 <= j < k ==> tags[j].name != forTag)
  {
    if |tags| == 0 then None
    else if tags[0].name == forTag then Some(tags[0])
    else
      var r := Lookup(forTag, tags[1..]);
      if r.Some? then
        var k :| 0 <= k < |tags[1..]| && tags[1..][k] == r.value && tags[1..][k].name == forTag
                 && (forall j :: 0 <= j < k ==> tags[1..][j].name != forTag);
        assert tags[k + 1] == r.value;
        assert forall j :: 1 <= j < k + 1 ==> tags[j] == tags[1..][j - 1];
        r
      else
        assert forall i :: 1 <= i < |tags| ==> tags[i] == tags[1..][i - 1];
        r
  }

  /** `findVersions`: look at the first status named `forTag` only and return its candidate versions. */
  method FindVersions(maxVer: int, forTag: string, tags: seq<TagStatus>) returns (found: bool, versions: seq<int>)
    ensures found <==> Lookup(forTag, tags).Some?
    ensures !found ==> versions == []
    ensures found ==> versions == Eligible(Lookup(forTag, tags).value.targets, maxVer)
  {
    var i := 0;
    while i < |tags|
      invariant 0 <= i <= |tags|
      invariant forall j :: 0 <= j < i ==> tags[j].name != forTag
      invariant Lookup(forTag, tags) == Lookup(forTag, tags[i..])
    {
      if tags[i].name == forTag {
        var targets := tags[i].targets;
        versions := [];
        var t := 0;
        while t < |targets|
          invariant 0 <= t <= |targets|
          invariant versions == Eligible(targets[..t], maxVer)
        {
          assert targets[..t + 1][..t] == targets[..t];
          if !targets[t].isOrphan && targets[t].version < maxVer {
            versions := versions + [targets[t].version];
          }
          t := t + 1;
        }
        assert targets[..t] == targets;
        return true, versions;
      }
      assert tags[i..][1..] == tags[i + 1..];
      i := i + 1;
    }
    return false, [];
  }

  /** The versions `--by-tag` adds: those of the CI tag, then those of the production tag; `None`
      when neither list has the tag. */
  function TagFroms(toVer: int, byTag: string, status: FactoryStatus): (r: Option<seq<int>>)
    ensures r.None? <==> (forall i :: 0 <= i < |status.tags| ==> status.tags[i].name != byTag)
                         && (forall i :: 0 <= i < |status.prodTags| ==> status.prodTags[i].name != byTag)
    ensures r.Some? ==> forall v :: v in r.value ==> v < toVer
  {
    var ci := Lookup(byTag, status.tags);
    var prod := Lookup(byTag, status.prodTags);
    if ci.None? && prod.None? then None
    else Some(FoundVersions(ci, toVer) + FoundVersions(prod, toVer))
  }

  /** The versions one lookup contributes: none when the tag was not found. */
  function FoundVersions(found: Option<TagStatus>, toVer: int): (r: seq<int>)
    ensures forall v :: v in r ==> v < toVer
  {
    if found.None? then []
    else
      EligibleMembers(found.value.targets, toVer);
      Eligible(found.value.targets, toVer)
  }

  /** An explicit from-version argument that is a number older than `toVer`. */
  predicate IsOlder(arg: string, toVer: int) {
    Atoi(arg).Ok? && Atoi(arg).value < toVer
  }

  predicate AllNumbers(args: seq<string>) {
    forall k :: 0 <= k < |args| ==> Atoi(args[k]).Ok?
  }

  /** The numbers the explicit from-version arguments denote, in order. */
  function Values(args: seq<string>): (r: seq<int>)
    requires AllNumbers(args)
    ensures |r| == |args| && forall k :: 0 <= k < |args| ==> r[k] == Atoi(args[k]).value
  {
    if |args| == 0 then [] else Values(args[..|args| - 1]) + [Atoi(args[|args| - 1]).value]
  }

  /** Extending a prefix of numbers by one more number keeps it all numbers. */
  lemma NumbersStep(args: seq<string>, i: nat)
    requires i < |args| && Atoi(args[i]).Ok?
    requires AllNumbers(args[..i])
    ensures AllNumbers(args[..i + 1])
  {
    var p := args[..i + 1];
    forall k | 0 <= k < i + 1 ensures Atoi(p[k]).Ok? {
      if k < i {
        assert p[k] == args[..i][k];
      }
    }
  }

  /** Extending a prefix of numbers by one more number extends its values by that number. */
  lemma ValuesStep(args: seq<string>, i: nat)
    requires i < |args| && Atoi(args[i]).Ok?
    requires AllNumbers(args[..i])
    ensures AllNumbers(args[..i + 1])
    ensures Values(args[..i + 1]) == Values(args[..i]) + [Atoi(args[i]).value]
  {
    NumbersStep(args, i);
    var p := args[..i + 1];
    assert p[..i] == args[..i];
  }

  /** One explicit from-version argument: it must be a number older than `toVer`. */
  function ParseFrom(arg: string, toVer: int): (r: Result<int, DeltaError>)
    ensures r.Ok? <==> IsOlder(arg, toVer)
    ensures r.Ok? ==> r.value == Atoi(arg).value
    ensures r.Err? ==> r.error.NotANumber? || r.error.FromNotOlder?
    ensures r.Err? && r.error.NotANumber? ==> r.error.arg == arg && Atoi(arg) == Err(r.error.cause)
    ensures r.Err? && r.error.FromNotOlder? ==>
      r.error.to == toVer && r.error.from >= toVer && Atoi(arg) == Ok(r.error.from)
  {
    match Atoi(arg)
    case Err(e) => Err(NotANumber(arg, e))
    case Ok(n) => if n >= toVer then Err(FromNotOlder(n, toVer)) else Ok(n)
  }

  /** The explicit from-versions, checked left to right: the reference the loop below follows. */
  function CheckFroms(args: seq<string>, toVer: int): Result<seq<int>, DeltaError>
  {
    if |args| == 0 then Ok([])
    else
      var init :- CheckFroms(args[..|args| - 1], toVer);
      var v :- ParseFrom(args[|args| - 1], toVer);
      Ok(init + [v])
  }

  /** Once a prefix is rejected, the whole list is rejected with the same error. */
  lemma {:induction false} CheckFromsRejectedPrefix(args: seq<string>, toVer: int, j: nat)
    requires j <= |args| && CheckFroms(args[..j], toVer).Err?
    ensures CheckFroms(args, toVer) == CheckFroms(args[..j], toVer)
    decreases |args|
  {
    if j < |args| {
      var init := args[..|args| - 1];
      assert init[..j] == args[..j];
      assert CheckFroms(init, toVer) == CheckFroms(init[..j], toVer) by {
        CheckFromsRejectedPrefix(init, toVer, j);
      }
    } else {
      assert args[..j] == args;
    }
  }

  /** The list is accepted exactly when every argument is a number older than `toVer`. */
  lemma {:induction false} CheckFromsAccepts(args: seq<string>, toVer: int)
    ensures CheckFroms(args, toVer).Ok? <==> forall k :: 0 <= k < |args| ==> IsOlder(args[k], toVer)
    decreases |args|
  {
    if |args| > 0 {
      var n := |args| - 1;
      var init := args[..n];
      CheckFromsAccepts(init, toVer);
      if CheckFroms(init, toVer).Ok? {
        assert forall k :: 0 <= k < n ==> IsOlder(args[k], toVer) by {
          assert forall k :: 0 <= k < n ==> init[k] == args[k];
        }
      } else {
        var k :| 0 <= k < n && !IsOlder(init[k], toVer);
        assert init[k] == args[k];
      }
    }
  }

  /** An accepted list yields the values of its arguments, in order. */
  lemma {:induction false} CheckFromsValues(args: seq<string>, toVer: int)
    requires CheckFroms(args, toVer).Ok?
    ensures AllNumbers(args) && CheckFroms(args, toVer).value == Values(args)
    decreases |args|
  {
    if |args| > 0 {
      var n := |args| - 1;
      var init := args[..n];
      CheckFromsValues(init, toVer);
      ValuesStep(args, n);
      assert args[..n + 1] == args;
    }
  }

  /** The rejected case: the error is that of the first argument that is not a number older than `toVer`. */
  lemma {:induction false} CheckFromsRejects(args: seq<string>, toVer: int)
    requires CheckFroms(args, toVer).Err?
    ensures exists k :: 0 <= k < |args| && ParseFrom(args[k], toVer) == Err(CheckFroms(args, toVer).error)
                        && forall j :: 0 <= j < k ==> IsOlder(args[j], toVer)
    decreases |args|
  {
    var n := |args| - 1;
    var init := args[..n];
    assert forall k :: 0 <= k < n ==> init[k] == args[k];
    if CheckFroms(init, toVer).Err? {
      CheckFromsRejects(init, toVer);
      var k :| 0 <= k < |init| && ParseFrom(init[k], toVer) == Err(CheckFroms(init, toVer).error)
               && forall j :: 0 <= j < k ==> IsOlder(init[j], toVer);
      assert args[k] == init[k];
    } else {
      CheckFromsAccepts(init, toVer);
      assert ParseFrom(args[n], toVer) == Err(CheckFroms(args, toVer).error);
    }
  }

  /** The loop over the explicit from-version arguments: all must be numbers older than `toVer`, and
      otherwise the first one that is not decides the error. */
  method ExplicitFroms(explicit: seq<string>, toVer: int) returns (r: Result<seq<int>, DeltaError>)
    ensures r == CheckFroms(explicit, toVer)
    ensures r.Ok? <==> forall k :: 0 <= k < |explicit| ==> IsOlder(explicit[k], toVer)
    ensures r.Ok? ==> AllNumbers(explicit) && r.value == Values(explicit)
    ensures r.Err? ==> exists k :: 0 <= k < |explicit| && ParseFrom(explicit[k], toVer) == Err(r.error)
                                 && forall j :: 0 <= j < k ==> IsOlder(explicit[j], toVer)
  {
    var froms: seq<int> := [];
    var i := 0;
    while i < |explicit|
      invariant 0 <= i <= |explicit|
      invariant CheckFroms(explicit[..i], toVer) == Ok(froms)
    {
      var fromI := ParseFrom(explicit[i], toVer);
      assert explicit[..i + 1][..i] == explicit[..i];
      if fromI.Err? {
        CheckFromsRejectedPrefix(explicit, toVer, i + 1);
        r := Err(fromI.error);
        CheckFromsRejects(explicit, toVer);
        CheckFromsAccepts(explicit, toVer);
        return;
      }
      froms := froms + [fromI.value];
      i := i + 1;
    }
    assert explicit[..i] == explicit;
    r := Ok(froms);
    CheckFromsAccepts(explicit, toVer);
    CheckFromsValues(explicit, toVer);
  }

  /** The `--by-tag` lookups in the CI and the production tag lists. */
  method ByTagFroms(toVer: int, byTag: string, status: FactoryStatus) returns (r: Option<seq<int>>)
    ensures r == TagFroms(toVer, byTag, status)
  {
    var foundCi, versionsCi := FindVersions(toVer, byTag, status.tags);
    var foundProd, versionsProd := FindVersions(toVer, byTag, status.prodTags);
    if !foundCi && !foundProd {
      return None;
    }
    var fromCi := if foundCi then versionsCi else [];
    var fromProd := if foundProd then versionsProd else [];
    return Some(fromCi + fromProd);
  }

  /** `doDeltas` up to the request: parse the target version, check every explicit from-version,
      add the `--by-tag` versions, and refuse an empty list. */
  method DoDeltas(args: seq<string>, byTag: string, hwId: string, status: FactoryStatus)
    returns (r: Result<DeltaRequest, DeltaError>)
    requires |args| >= 1
    ensures Atoi(args[0]).Err? ==> r == Err(NotANumber(args[0], Atoi(args[0]).error))
    ensures r.Ok? ==> Atoi(args[0]).Ok? && r.value.to == Atoi(args[0]).value && r.value.hwId == hwId
    ensures r.Ok? ==> AllNumbers(args[1..]) && forall k :: 1 <= k < |args| ==> Atoi(args[k]).value < r.value.to
    ensures r.Ok? && |byTag| > 0 ==> TagFroms(r.value.to, byTag, status).Some?
    ensures r.Ok? ==> (r.value.froms ==
      Values(args[1..]) + (if |byTag| > 0 then TagFroms(r.value.to, byTag, status).value else []))
    ensures r.Ok? ==> |r.value.froms| > 0 && forall v :: v in r.value.froms ==> v < r.value.to
    ensures Atoi(args[0]).Ok? && (exists k :: 1 <= k < |args| && Atoi(args[k]).Ok? && Atoi(args[k]).value >= Atoi(args[0]).value)
            ==> r.Err?
    ensures Atoi(args[0]).Ok? && CheckFroms(args[1..], Atoi(args[0]).value).Err? ==>
      r == Err(CheckFroms(args[1..], Atoi(args[0]).value).error)
    ensures (Atoi(args[0]).Ok? && CheckFroms(args[1..], Atoi(args[0]).value).Ok? && |byTag| > 0
             && TagFroms(Atoi(args[0]).value, byTag, status).None?) ==> r == Err(NoSuchTag(byTag))
    ensures (Atoi(args[0]).Ok? && |args| == 1
             && (|byTag| == 0 || TagFroms(Atoi(args[0]).value, byTag, status) == Some([]))) ==> r == Err(NothingToDo)
    ensures r.Err? && r.error.NoSuchTag? ==> r.error.tag == byTag && TagFroms(Atoi(args[0]).value, byTag, status).None?
    ensures r.Err? && r.error.NothingToDo? ==>
      |args| == 1 && (|byTag| == 0 || TagFroms(Atoi(args[0]).value, byTag, status) == Some([]))
    ensures Atoi(args[0]).Ok? && (forall k :: 1 <= k < |args| ==> IsOlder(args[k], Atoi(args[0]).value))
            && (|byTag| > 0 ==> TagFroms(Atoi(args[0]).value, byTag, status).Some?)
            && (|args| > 1 || (|byTag| > 0 && |TagFroms(Atoi(args[0]).value, byTag, status).value| > 0))
            ==> r.Ok?
  {
    var parsedTo := Atoi(args[0]);
    if parsedTo.Err? {
      return Err(NotANumber(args[0], parsedTo.error));
    }
    var toVer := parsedTo.value;
    var explicit := ExplicitFroms(args[1..], toVer);
    if explicit.Err? {
      return Err(explicit.error);
    }
    var froms := explicit.value;
    assert |froms| == |args| - 1;
    assert forall k :: 1 <= k < |args| ==> args[k] == args[1..][k - 1];
    assert forall v :: v in froms ==> v < toVer;
    if |byTag| > 0 {
      var tagged := ByTagFroms(toVer, byTag, status);
      if tagged.None? {
        return Err(NoSuchTag(byTag));
      }
      froms := froms + tagged.value;
    }
    if |froms| == 0 {
      return Err(NothingToDo);
    }
    return Ok(DeltaRequest(toVer, froms, hwId));
  }
}

=== FILE: text.dfy ===
/** Substrings and the `strings.Join` / `strings.Split` pair used to build error messages. */
module Text {

  /** `t` occurs in `s` at index `i`. */
  predicate OccursAt(s: string, t: string, i: int) {
    0 <= i && i + |t| <= |s| && s[i..i + |t|] == t
  }

  predicate Contains(s: string, t: string) {
    exists i :: 0 <= i <= |s| && OccursAt(s, t, i)
  }

  lemma ContainsSelf(t: string)
    ensures Contains(t, t)
  {
    assert t[0..|t|] == t;
    assert OccursAt(t, t, 0);
  }

  lemma ContainsInLeft(x: string, y: string, t: string)
    requires Contains(x, t)
    ensures Contains(x + y, t)
  {
    var i :| 0 <= i <= |x| && OccursAt(x, t, i);
    assert (x + y)[i..i + |t|] == x[i..i + |t|];
    assert OccursAt(x + y, t, i);
  }

  lemma ContainsInRight(x: string, y: string, t: string)
    requires Contains(y, t)
    ensures Contains(x + y, t)
  {
    var i :| 0 <= i <= |y| && OccursAt(y, t, i);
    assert (x + y)[|x| + i..|x| + i + |t|] == y[i..i + |t|];
    assert OccursAt(x + y, t, |x| + i);
  }

  /** A piece occurs in any string built around it. */
  lemma ContainsMiddle(x: string, t: string, y: string)
    ensures Contains(x + t + y, t)
  {
    ContainsSelf(t);
    ContainsInRight(x, t, t);
    ContainsInLeft(x + t, y, t);
  }

  lemma ContainsSuffix(x: string, t: string)
    ensures Contains(x + t, t)
  {
    ContainsSelf(t);
    ContainsInRight(x, t, t);
  }

  /** Both pieces filled into a two-hole template occur in the result. */
  lemma ContainsFilled(a: string, n: string, b: string, t: string)
    ensures Contains(a + n + b + t, n) && Contains(a + n + b + t, t)
  {
    ContainsMiddle(a, n, b);
    ContainsInLeft(a + n + b, t, n);
    ContainsSuffix(a + n + b, t);
  }

  /** Containment is transitive: what occurs in a piece occurs in the whole. */
  lemma ContainsTransitive(s: string, u: string, t: string)
    requires Contains(s, u) && Contains(u, t)
    ensures Contains(s, t)
  {
    var i :| 0 <= i <= |s| && OccursAt(s, u, i);
    var j :| 0 <= j <= |u| && OccursAt(u, t, j);
    assert 0 <= i + j && i + j + |t| <= |s|;
    forall k | 0 <= k < |t|
      ensures s[i + j + k] == t[k]
    {
      assert s[i..i + |u|][j + k] == u[j + k];
      assert u[j..j + |t|][k] == t[k];
    }
    assert s[i + j..i + j + |t|] == t;
    assert OccursAt(s, t, i + j);
  }

  /** `strings.Join`: the parts with `sep` between consecutive ones. */
  function Join(parts: seq<string>, sep: string): (r: string)
    ensures forall k :: 0 <= k < |parts| ==> Contains(r, parts[k])
  {
    if |parts| == 0 then ""
    else if |parts| == 1 then ContainsSelf(parts[0]); parts[0]
    else
      var rest := Join(parts[1..], sep);
      JoinContainsParts(parts, sep, rest);
      parts[0] + sep + rest
  }

  /** Every part occurs in `parts[0] + sep + rest` when the later parts occur in `rest`. */
  lemma JoinContainsParts(parts: seq<string>, sep: string, rest: string)
    requires |parts| >= 2
    requires forall k :: 0 <= k < |parts[1..]| ==> Contains(rest, parts[1..][k])
    ensures forall k :: 0 <= k < |parts| ==> Contains(parts[0] + sep + rest, parts[k])
  {
    forall k | 0 <= k < |parts|
      ensures Contains(parts[0] + sep + rest, parts[k])
    {
      if k == 0 {
        ContainsSelf(parts[0]);
        ContainsInLeft(parts[0], sep, parts[0]);
        ContainsInLeft(parts[0] + sep, rest, parts[0]);
      } else {
        assert parts[1..][k - 1] == parts[k];
        ContainsInRight(parts[0] + sep, rest, parts[k]);
      }
    }
  }

  /** Index of the first occurrence of `c` in `s`. */
  function IndexOf(s: string, c: char): (i: nat)
    requires c in s
    ensures i < |s| && s[i] == c && c !in s[..i]
  {
    if s[0] == c then 0 else 1 + IndexOf(s[1..], c)
  }

  /** `strings.Split` on a one-character separator. */
  function Split(s: string, c: char): (parts: seq<string>)
    ensures |parts| >= 1
    decreases |s|
  {
    if c in s then
      var i := IndexOf(s, c);
      [s[..i]] + Split(s[i + 1..], c)
    else
      [s]
  }

  /** Joining parts that do not contain the separator and splitting the result gives the parts back. */
  lemma {:induction false} SplitJoin(parts: seq<string>, c: char)
    requires |parts| >= 1
    requires forall k :: 0 <= k < |parts| ==> c !in parts[k]
    ensures Split(Join(parts, [c]), c) == parts
  {
    if |parts| == 1 {
      assert Join(parts, [c]) == parts[0];
    } else {
      var rest := Join(parts[1..], [c]);
      var s := parts[0] + [c] + rest;
      assert Join(parts, [c]) == s;
      assert s[|parts[0]|] == c;
      var i := IndexOf(s, c);
      assert i == |parts[0]|;
      assert s[..i] == parts[0];
      assert s[i + 1..] == rest;
      SplitJoin(parts[1..], c);
      assert Split(s, c) == [parts[0]] + parts[1..];
    }
  }
}

=== FILE: tuf.dfy ===
/** The TUF metadata the wave and key commands read and write: targets documents, their files,
    and the parts of the root document that name the `targets` signing keys. */
module Tuf {

  /** A JSON value as Go's `encoding/json` decodes it into an `interface{}`. */
  datatype Value =
    | Null
    | Bool(b: bool)
    | Number(n: int)
    | Str(s: string)
    | Array(items: seq<Value>)
    | Object(fields: map<string, Value>)

  /** The raw `custom` annotation of a target file: a JSON object, the JSON literal `null`,
      or anything that does not decode as either. */
  datatype RawCustom = Fields(fields: map<string, Value>) | JsonNull | Unreadable

  /** `tuf.FileMeta`: one target file of a targets document. */
  datatype FileMeta = FileMeta(length: int, hashes: map<string, string>, custom: RawCustom)

  /** `tuf.Files`: target name to file. */
  type Files = map<string, FileMeta>

  /** The `_type` a targets document carries. */
  const TargetsType: string := "Targets"

  /** The signed part of a targets document; `expires` is in whole seconds. */
  datatype TargetsMeta = TargetsMeta(typ: string, expires: int, version: int, targets: Files)

  /** A public key entry of the root document. */
  datatype Key = Key(keyType: string, publicKey: string)

  /** A role of the root document: its threshold and its key IDs in document order. */
  datatype RootRole = RootRole(threshold: int, keyIds: seq<string>)

  /** The signed part of the root document. */
  datatype Root = Root(roles: map<string, RootRole>, keys: map<string, Key>)

  const TargetsRole: string := "targets"
}

=== FILE: tuf_updates_apply.dfy ===
/** `fioctl keys tuf updates apply`: how the result of applying staged TUF root updates is reported.
    The apply call and the status re-query are made by the caller and passed in. */
module TufUpdatesApply {
  import opened Wrappers
  import opened Text

  /** What `api.TufRootUpdatesApply` returned: no error, an HTTP error with its status, or another error. */
  datatype ApplyResult = Applied | HttpFailure(status: int, cause: string) | OtherFailure(cause: string)

  /** The transaction status `api.TufRootUpdatesGet` reports. */
  datatype UpdatesStatus = StatusNone | StatusOther(name: string)

  /** The four ways the command can end. */
  datatype Kind = Success | NoUpdatesInProgress | NonFatal | Fatal

  /** The next steps a failure message offers the operator. */
  datatype Step = FixAndRerunApply | CancelStaged | RerunApplySoon | ContactSupport

  datatype Outcome = Outcome(kind: Kind, message: string, steps: seq<Step>)

  /** The HTTP statuses after which the Factory is known to be unchanged. */
  const NonFatalStatuses: seq<int> := [400, 401, 403, 422, 423]

  const ApplyCommand: string := "fioctl keys tuf updates apply"
  const CancelCommand: string := "fioctl keys tuf updates cancel"

  const SuccessMessage: string :=
    "The staged TUF root updates were applied to your Factory.\n"
    + "Please, make sure that the updated TUF keys file(s) are stored in a safe place."

  const NoUpdatesMessage: string := "There are no TUF root updates in progress."

  const FailurePrefix: string := "Failed to apply staged TUF root updates:\n"

  const NonFatalHeader: string :=
    "No changes were made to your Factory.\nThere are two options available for you now:"

  const PartiallyApplied: string := "partially applied"
  const RerunPhrase: string := "re-run"

  const FatalHeader: string :=
    "\nThis is a critical error: Staged TUF root updates may be only " + PartiallyApplied + " to your Factory."

  function StepText(step: Step): string
  {
    match step
    case FixAndRerunApply => "- fix the errors listed above and run the \"" + ApplyCommand + "\" again."
    case CancelStaged => "- cancel the staged TUF root updates using the \"" + CancelCommand + "\""
    case RerunApplySoon => "Please " + RerunPhrase + " the \"" + ApplyCommand + "\" soon after a short pause."
    case ContactSupport => "If the error persists, please contact customer support."
  }

  const NonFatalSteps: seq<Step> := [FixAndRerunApply, CancelStaged]
  const FatalSteps: seq<Step> := [RerunApplySoon, ContactSupport]

  /** `fmt.Errorf(msg, err)`: the prefix, the original error, then the advice, one line per step. */
  function FailureMessage(cause: string, header: string, steps: seq<Step>): string
    requires |steps| == 2
  {
    FailurePrefix + cause + "\n" + header + "\n" + StepText(steps[0]) + "\n" + StepText(steps[1])
  }

  /** The error text of a failed apply call. */
  function Cause(result: ApplyResult): string
    requires !result.Applied?
  {
    result.cause
  }

  /** The clean outcome: the server said 404 and the re-query shows no transaction in progress. */
  predicate NothingStaged(result: ApplyResult, requery: Result<UpdatesStatus, string>) {
    result.HttpFailure? && result.status == 404 && requery == Ok(StatusNone)
  }

  /** The error branch of `doTufUpdatesApply`. `requery` is what `api.TufRootUpdatesGet` would return;
      the code asks for it only after a 404. */
  function Classify(result: ApplyResult, requery: Result<UpdatesStatus, string>): (r: Outcome)
    ensures r.kind == Success <==> result.Applied?
    ensures r.kind == NoUpdatesInProgress <==> NothingStaged(result, requery)
    ensures r.kind == NonFatal <==> result.HttpFailure? && result.status in NonFatalStatuses
    ensures r.kind == Fatal <==>
      result.OtherFailure? || (result.HttpFailure? && result.status !in NonFatalStatuses && !NothingStaged(result, requery))
    ensures r.kind == Success ==> r.message == SuccessMessage
    ensures r.kind == NoUpdatesInProgress ==> r.message == NoUpdatesMessage
    ensures r.kind == NonFatal ==> r.steps == NonFatalSteps && r.message == FailureMessage(Cause(result), NonFatalHeader, r.steps)
    ensures r.kind == Fatal ==> r.steps == FatalSteps && r.message == FailureMessage(Cause(result), FatalHeader, r.steps)
  {
    match result
    case Applied => Outcome(Success, SuccessMessage, [])
    case HttpFailure(status, cause) =>
      if status == 404 && requery.Ok? && requery.value == StatusNone then
        Outcome(NoUpdatesInProgress, NoUpdatesMessage, [])
      else if status in NonFatalStatuses then
        Outcome(NonFatal, FailureMessage(cause, NonFatalHeader, NonFatalSteps), NonFatalSteps)
      else
        Outcome(Fatal, FailureMessage(cause, FatalHeader, FatalSteps), FatalSteps)
    case OtherFailure(cause) =>
      Outcome(Fatal, FailureMessage(cause, FatalHeader, FatalSteps), FatalSteps)
  }

  /** A non-fatal failure offers both re-running apply and cancelling; a fatal one offers re-running
      and never cancelling. */
  lemma ClassifySteps(result: ApplyResult, requery: Result<UpdatesStatus, string>)
    ensures Classify(result, requery).kind == NonFatal ==>
      FixAndRerunApply in Classify(result, requery).steps && CancelStaged in Classify(result, requery).steps
    ensures Classify(result, requery).kind == Fatal ==>
      RerunApplySoon in Classify(result, requery).steps && CancelStaged !in Classify(result, requery).steps
    ensures Classify(result, requery).kind in {Success, NoUpdatesInProgress} ==> Classify(result, requery).steps == []
  {
  }

  /** A failure message contains the original error, the header and each step's text. */
  lemma FailureMessageParts(cause: string, header: string, steps: seq<Step>)
    requires |steps| == 2
    ensures Contains(FailureMessage(cause, header, steps), cause)
    ensures Contains(FailureMessage(cause, header, steps), header)
    ensures Contains(FailureMessage(cause, header, steps), StepText(steps[0]))
    ensures Contains(FailureMessage(cause, header, steps), StepText(steps[1]))
  {
    var a, b := StepText(steps[0]), StepText(steps[1]);
    var nl := "\n";
    var m1 := FailurePrefix + cause;
    var m2 := m1 + nl;
    var m3 := m2 + header;
    var m4 := m3 + nl;
    var m5 := m4 + a;
    var m6 := m5 + nl;
    var m := m6 + b;
    ContainsSelf(cause);
    ContainsInRight(FailurePrefix, cause, cause);
    ContainsSelf(header);
    ContainsInRight(m2, header, header);
    ContainsSelf(a);
    ContainsInRight(m4, a, a);
    ContainsSelf(b);
    ContainsInRight(m6, b, b);
    ContainsInLeft(m1, nl, cause);
    ContainsInLeft(m2, header, cause);
    ContainsInLeft(m3, nl, cause);
    ContainsInLeft(m3, nl, header);
    ContainsInLeft(m4, a, cause);
    ContainsInLeft(m4, a, header);
    ContainsInLeft(m5, nl, cause);
    ContainsInLeft(m5, nl, header);
    ContainsInLeft(m5, nl, a);
    ContainsInLeft(m6, b, cause);
    ContainsInLeft(m6, b, header);
    ContainsInLeft(m6, b, a);
  }

  /** The commands and phrases the advice lines carry. */
  lemma AdviceMentions()
    ensures Contains(StepText(FixAndRerunApply), ApplyCommand)
    ensures Contains(StepText(CancelStaged), CancelCommand)
    ensures Contains(StepText(RerunApplySoon), RerunPhrase)
    ensures Contains(FatalHeader, PartiallyApplied)
  {
    var fix := "- fix the errors listed above and run the \"";
    ContainsSelf(ApplyCommand);
    ContainsInRight(fix, ApplyCommand, ApplyCommand);
    ContainsInLeft(fix + ApplyCommand, "\" again.", ApplyCommand);

    var cancel := "- cancel the staged TUF root updates using the \"";
    ContainsSelf(CancelCommand);
    ContainsInRight(cancel, CancelCommand, CancelCommand);
    ContainsInLeft(cancel + CancelCommand, "\"", CancelCommand);

    var please := "Please ";
    ContainsSelf(RerunPhrase);
    ContainsInRight(please, RerunPhrase, RerunPhrase);
    ContainsInLeft(please + RerunPhrase, " the \"", RerunPhrase);
    ContainsInLeft(please + RerunPhrase + " the \"", ApplyCommand, RerunPhrase);
    ContainsInLeft(please + RerunPhrase + " the \"" + ApplyCommand, "\" soon after a short pause.", RerunPhrase);

    var critical := "\nThis is a critical error: Staged TUF root updates may be only ";
    ContainsSelf(PartiallyApplied);
    ContainsInRight(critical, PartiallyApplied, PartiallyApplied);
    ContainsInLeft(critical + PartiallyApplied, " to your Factory.", PartiallyApplied);
  }

  /** Both failure messages wrap the original error; the non-fatal one names both commands, the fatal
      one says the updates may be partially applied and asks for a re-run. */
  lemma ClassifyMessages(result: ApplyResult, requery: Result<UpdatesStatus, string>)
    ensures Classify(result, requery).kind in {NonFatal, Fatal} ==>
      Contains(Classify(result, requery).message, Cause(result))
    ensures Classify(result, requery).kind == NonFatal ==>
      Contains(Classify(result, requery).message, ApplyCommand) && Contains(Classify(result, requery).message, CancelCommand)
    ensures Classify(result, requery).kind == Fatal ==>
      Contains(Classify(result, requery).message, PartiallyApplied) && Contains(Classify(result, requery).message, RerunPhrase)
  {
    var r := Classify(result, requery);
    AdviceMentions();
    if r.kind == NonFatal {
      FailureMessageParts(Cause(result), NonFatalHeader, NonFatalSteps);
      ContainsTransitive(r.message, StepText(FixAndRerunApply), ApplyCommand);
      ContainsTransitive(r.message, StepText(CancelStaged), CancelCommand);
    } else if r.kind == Fatal {
      FailureMessageParts(Cause(result), FatalHeader, FatalSteps);
      ContainsTransitive(r.message, FatalHeader, PartiallyApplied);
      ContainsTransitive(r.message, StepText(RerunApplySoon), RerunPhrase);
    }
  }

  /** The re-query decides nothing unless the apply call failed with HTTP 404. */
  lemma RequeryOnlyAfter404(result: ApplyResult, q1: Result<UpdatesStatus, string>, q2: Result<UpdatesStatus, string>)
    requires !(result.HttpFailure? && result.status == 404)
    ensures Classify(result, q1) == Classify(result, q2)
  {
  }

  /** A 404 whose re-query fails, or shows a transaction in progress, is fatal. */
  lemma NotFoundWithoutCleanStatusIsFatal(cause: string, requery: Result<UpdatesStatus, string>)
    requires requery != Ok(StatusNone)
    ensures Classify(HttpFailure(404, cause), requery).kind == Fatal
  {
  }
}

=== FILE: wave_init.dfy ===
/** `fioctl wave init <wave> <version> <tag>`: build the production targets document of a new wave
    from the CI targets of `version` and the current production targets of `tag`, then pick the
    offline key that signs it. Fetching, serialising, signing and submitting are left to the caller;
    their inputs and outputs are the parameters and the result. */
module WaveInit {
  import opened Wrappers
  import opened Tuf
  import opened Custom
  import Decimal
  import opened Waves
  import opened WaveMerge
  import opened WavePrune
  import opened WaveSigner

  /** The targets the new document starts from: the production ones, or none. */
  function BaseTargets(prod: Option<TargetsMeta>): Files
  {
    if prod.None? then map[] else prod.value.targets
  }

  /** The `--prune` step: refuse to prune the version being promoted, else `pruneTargets`. */
  function PruneStep(merged: Files, prune: seq<string>, versionArg: string): (r: Result<Files, WaveError>)
    ensures |prune| == 0 ==> r == Ok(merged)
    ensures |prune| > 0 && versionArg in prune ==> r == Err(PruneCurrent)
    ensures |prune| > 0 && versionArg !in prune ==> r == PruneTargets(merged, prune)
  {
    if |prune| > 0 then
      if versionArg in prune then Err(PruneCurrent) else PruneTargets(merged, prune)
    else Ok(merged)
  }

  /** The merge loop followed by the prune step. */
  function BuildTargets(base: Files, ci: Files, ciOrder: seq<string>, sourceTag: string, tag: string,
                        prune: seq<string>, versionArg: string): (r: Result<Files, WaveError>)
    requires Enumerates(ciOrder, ci)
    ensures r.Ok? ==> forall n :: n in r.value ==>
      || (n in base && r.value[n] == base[n])
      || (n in ci && Picks(ci[n], sourceTag) && ci[n].custom.Fields? && r.value[n] == Promote(ci[n], tag))
    ensures r.Ok? && |prune| > 0 ==> versionArg !in prune
    ensures r.Err? ==> || r.error.TargetExists? || r.error.BadCustom? || r.error.MalformedCustom?
                       || r.error.PruneCurrent? || r.error.PruneNotFound?
  {
    var merged :- MergeInOrder(base, ci, ciOrder, sourceTag, tag);
    MergeOrderIndependent(base, ci, ciOrder, sourceTag, tag);
    PruneStep(merged, prune, versionArg)
  }

  /** The targets built: the base plus the promoted selection of CI targets, minus the pruned ones,
      whatever the iteration order. */
  lemma BuildTargetsMeaning(base: Files, ci: Files, ciOrder: seq<string>, sourceTag: string, tag: string,
                            prune: seq<string>, versionArg: string)
    requires Enumerates(ciOrder, ci)
    requires BuildTargets(base, ci, ciOrder, sourceTag, tag, prune, versionArg).Ok?
    ensures var merged := base + Promoted(ci, ci.Keys, sourceTag, tag);
      var files := BuildTargets(base, ci, ciOrder, sourceTag, tag, prune, versionArg).value;
      && !MergeFails(base, ci, ci.Keys, sourceTag)
      && (|prune| == 0 ==> files == merged)
      && (|prune| > 0 ==> versionArg !in prune && AllDecode(merged) && |Missing(merged, prune)| == 0
                          && files == Kept(merged, prune))
  {
    MergeOrderIndependent(base, ci, ciOrder, sourceTag, tag);
    var merged := base + Promoted(ci, ci.Keys, sourceTag, tag);
    if |prune| > 0 {
      PruneTargetsMeaning(merged, prune);
    }
  }

  lemma BuildTargetsOrderIndependent(base: Files, ci: Files, order1: seq<string>, order2: seq<string>,
                                     sourceTag: string, tag: string, prune: seq<string>, versionArg: string)
    requires Enumerates(order1, ci) && Enumerates(order2, ci)
    ensures var r1 := BuildTargets(base, ci, order1, sourceTag, tag, prune, versionArg);
      var r2 := BuildTargets(base, ci, order2, sourceTag, tag, prune, versionArg);
      (r1.Ok? <==> r2.Ok?) && (r1.Ok? ==> r1 == r2)
  {
    MergeOrderIndependent(base, ci, order1, sourceTag, tag);
    MergeOrderIndependent(base, ci, order2, sourceTag, tag);
  }

  /** The build succeeds exactly when the merge meets no clash, undecodable annotation or malformed
      selected annotation, and, with `--prune`, the promoted version is not pruned and every label
      matches a target of the merged document, whose annotations all decode. */
  lemma BuildTargetsSucceeds(base: Files, ci: Files, ciOrder: seq<string>, sourceTag: string, tag: string,
                             prune: seq<string>, versionArg: string)
    requires Enumerates(ciOrder, ci)
    ensures var merged := base + Promoted(ci, ci.Keys, sourceTag, tag);
      BuildTargets(base, ci, ciOrder, sourceTag, tag, prune, versionArg).Ok? <==>
        && !MergeFails(base, ci, ci.Keys, sourceTag)
        && (|prune| > 0 ==> versionArg !in prune && AllDecode(merged) && |Missing(merged, prune)| == 0)
  {
    MergeOrderIndependent(base, ci, ciOrder, sourceTag, tag);
    var merged := base + Promoted(ci, ci.Keys, sourceTag, tag);
    if |prune| > 0 {
      PruneTargetsMeaning(merged, prune);
    }
  }

  /** Which error a failed build reports: the merge loop's own error, else `PruneCurrent` when the
      promoted version is pruned, `BadCustom` when a merged annotation does not decode, and otherwise
      the unmatched labels in request order. */
  lemma BuildTargetsErrors(base: Files, ci: Files, ciOrder: seq<string>, sourceTag: string, tag: string,
                           prune: seq<string>, versionArg: string)
    requires Enumerates(ciOrder, ci)
    ensures MergeInOrder(base, ci, ciOrder, sourceTag, tag).Err? ==>
      BuildTargets(base, ci, ciOrder, sourceTag, tag, prune, versionArg) == Err(MergeInOrder(base, ci, ciOrder, sourceTag, tag).error)
    ensures !MergeFails(base, ci, ci.Keys, sourceTag) && |prune| > 0 && versionArg in prune ==>
      BuildTargets(base, ci, ciOrder, sourceTag, tag, prune, versionArg) == Err(PruneCurrent)
    ensures var merged := base + Promoted(ci, ci.Keys, sourceTag, tag);
      !MergeFails(base, ci, ci.Keys, sourceTag) && |prune| > 0 && versionArg !in prune && !AllDecode(merged) ==>
        BuildTargets(base, ci, ciOrder, sourceTag, tag, prune, versionArg) == Err(BadCustom)
    ensures var merged := base + Promoted(ci, ci.Keys, sourceTag, tag);
      (!MergeFails(base, ci, ci.Keys, sourceTag) && |prune| > 0 && versionArg !in prune && AllDecode(merged)
       && |Missing(merged, prune)| > 0) ==>
        BuildTargets(base, ci, ciOrder, sourceTag, tag, prune, versionArg) == Err(PruneNotFound(Missing(merged, prune)))
  {
    MergeOrderIndependent(base, ci, ciOrder, sourceTag, tag);
    var merged := base + Promoted(ci, ci.Keys, sourceTag, tag);
    if |prune| > 0 {
      PruneTargetsMeaning(merged, prune);
    }
  }

  /** `doInitWave` from the parsed arguments on. `ciOrder` is the order Go happens to visit the CI
      targets in; `offline` holds the key IDs of the offline credentials. */
  function InitWave(
    name: string, versionArg: string, tag: string, expires: int,
    prune: seq<string>, sourceTag: string,
    ci: Files, ciOrder: seq<string>, prod: Option<TargetsMeta>,
    root: Root, onlinePub: string, offline: set<string>): (r: Result<Wave, WaveError>)
    requires Enumerates(ciOrder, ci)
    ensures Decimal.ParseInt(versionArg, 32).Err? ==> r == Err(BadVersion(versionArg, Decimal.ParseInt(versionArg, 32).error))
    ensures Decimal.ParseInt(versionArg, 32).Ok? && |ci| == 0 ==> r == Err(NoTargets(versionArg))
    ensures (Decimal.ParseInt(versionArg, 32).Ok? && |ci| > 0 && prod.Some?
             && Decimal.ParseInt(versionArg, 32).value <= prod.value.version) ==> r == Err(VersionNotNewer)
    ensures (Decimal.ParseInt(versionArg, 32).Ok? && |ci| > 0
             && !(prod.Some? && Decimal.ParseInt(versionArg, 32).value <= prod.value.version)
             && BuildTargets(BaseTargets(prod), ci, ciOrder, sourceTag, tag, prune, versionArg).Err?)
            ==> r == Err(BuildTargets(BaseTargets(prod), ci, ciOrder, sourceTag, tag, prune, versionArg).error)
    ensures (Decimal.ParseInt(versionArg, 32).Ok? && |ci| > 0
             && !(prod.Some? && Decimal.ParseInt(versionArg, 32).value <= prod.value.version)
             && BuildTargets(BaseTargets(prod), ci, ciOrder, sourceTag, tag, prune, versionArg).Ok?
             && SelectSigner(root, onlinePub, offline).Err?) ==> r == Err(SelectSigner(root, onlinePub, offline).error)
    ensures r.Ok? ==> Decimal.ParseInt(versionArg, 32).Ok? && |ci| > 0
    ensures r.Ok? ==> && r.value.name == name && r.value.version == versionArg && r.value.tag == tag
                      && r.value.targets.typ == TargetsType && r.value.targets.expires == expires
                      && r.value.targets.version == Decimal.ParseInt(versionArg, 32).value
    ensures r.Ok? && prod.Some? ==> prod.value.version < r.value.targets.version
    ensures r.Ok? ==> versionArg !in prune
    ensures r.Ok? ==> && r.value.signer in TargetsKeyIds(root) && r.value.signer in offline
                      && PublicOf(root, r.value.signer) != onlinePub
  {
    match Decimal.ParseInt(versionArg, 32)
    case Err(cause) => Err(BadVersion(versionArg, cause))
    case Ok(v) => CreateWave(name, versionArg, v, tag, expires, prune, sourceTag, ci, ciOrder, prod, root, onlinePub, offline)
  }

  /** `doInitWave` once the version argument has parsed to `v`. */
  function CreateWave(
    name: string, versionArg: string, v: int, tag: string, expires: int,
    prune: seq<string>, sourceTag: string,
    ci: Files, ciOrder: seq<string>, prod: Option<TargetsMeta>,
    root: Root, onlinePub: string, offline: set<string>): (r: Result<Wave, WaveError>)
    requires Enumerates(ciOrder, ci)
    ensures |ci| == 0 ==> r == Err(NoTargets(versionArg))
    ensures |ci| > 0 && prod.Some? && v <= prod.value.version ==> r == Err(VersionNotNewer)
    ensures (|ci| > 0 && !(prod.Some? && v <= prod.value.version)
             && BuildTargets(BaseTargets(prod), ci, ciOrder, sourceTag, tag, prune, versionArg).Err?)
            ==> r == Err(BuildTargets(BaseTargets(prod), ci, ciOrder, sourceTag, tag, prune, versionArg).error)
    ensures (|ci| > 0 && !(prod.Some? && v <= prod.value.version)
             && BuildTargets(BaseTargets(prod), ci, ciOrder, sourceTag, tag, prune, versionArg).Ok?
             && SelectSigner(root, onlinePub, offline).Err?) ==> r == Err(SelectSigner(root, onlinePub, offline).error)
    ensures r.Ok? ==> |ci| > 0
    ensures r.Ok? ==> && r.value.name == name && r.value.version == versionArg && r.value.tag == tag
                      && r.value.targets.typ == TargetsType && r.value.targets.expires == expires
                      && r.value.targets.version == v
    ensures r.Ok? && prod.Some? ==> prod.value.version < v
    ensures r.Ok? ==> versionArg !in prune
    ensures r.Ok? ==> && r.value.signer in TargetsKeyIds(root) && r.value.signer in offline
                      && PublicOf(root, r.value.signer) != onlinePub
  {
    if |ci| == 0 then Err(NoTargets(versionArg))
    else if prod.Some? && v <= prod.value.version then Err(VersionNotNewer)
    else
      var pruned :- BuildTargets(BaseTargets(prod), ci, ciOrder, sourceTag, tag, prune, versionArg);
      var signer :- SelectSigner(root, onlinePub, offline);
      Ok(Wave(name, versionArg, tag, TargetsMeta(TargetsType, expires, v, pruned), signer))
  }

  /** Once the version has parsed, a wave is created exactly when none of the checks fires: there are
      CI targets, the version is above production, the build succeeds, and some `targets` key other
      than the online one is held offline. */
  lemma CreateWaveSucceeds(
    name: string, versionArg: string, v: int, tag: string, expires: int,
    prune: seq<string>, sourceTag: string,
    ci: Files, ciOrder: seq<string>, prod: Option<TargetsMeta>,
    root: Root, onlinePub: string, offline: set<string>)
    requires Enumerates(ciOrder, ci)
    ensures var merged := BaseTargets(prod) + Promoted(ci, ci.Keys, sourceTag, tag);
      CreateWave(name, versionArg, v, tag, expires, prune, sourceTag, ci, ciOrder, prod, root, onlinePub, offline).Ok? <==>
        && |ci| > 0
        && (prod.Some? ==> prod.value.version < v)
        && !MergeFails(BaseTargets(prod), ci, ci.Keys, sourceTag)
        && (|prune| > 0 ==> versionArg !in prune && AllDecode(merged) && |Missing(merged, prune)| == 0)
        && (exists k :: k in TargetsKeyIds(root) && k in offline && PublicOf(root, k) != onlinePub)
  {
    BuildTargetsSucceeds(BaseTargets(prod), ci, ciOrder, sourceTag, tag, prune, versionArg);
  }

  /** Once the version has parsed, the created wave does not depend on the iteration order. */
  lemma CreateWaveOrderIndependent(
    name: string, versionArg: string, v: int, tag: string, expires: int,
    prune: seq<string>, sourceTag: string,
    ci: Files, order1: seq<string>, order2: seq<string>, prod: Option<TargetsMeta>,
    root: Root, onlinePub: string, offline: set<string>)
    requires Enumerates(order1, ci) && Enumerates(order2, ci)
    ensures var r1 := CreateWave(name, versionArg, v, tag, expires, prune, sourceTag, ci, order1, prod, root, onlinePub, offline);
      var r2 := CreateWave(name, versionArg, v, tag, expires, prune, sourceTag, ci, order2, prod, root, onlinePub, offline);
      (r1.Ok? <==> r2.Ok?) && (r1.Ok? ==> r1 == r2)
  {
    if |ci| > 0 && !(prod.Some? && v <= prod.value.version) {
      var b1 := BuildTargets(BaseTargets(prod), ci, order1, sourceTag, tag, prune, versionArg);
      var b2 := BuildTargets(BaseTargets(prod), ci, order2, sourceTag, tag, prune, versionArg);
      BuildTargetsOrderIndependent(BaseTargets(prod), ci, order1, order2, sourceTag, tag, prune, versionArg);
      assert b1.Ok? ==> b1 == b2;
    }
  }

  /** The targets of a created wave: the production targets plus the promoted selection of CI
      targets, minus the pruned ones; the iteration order plays no part. */
  lemma InitWaveTargets(
    name: string, versionArg: string, tag: string, expires: int,
    prune: seq<string>, sourceTag: string,
    ci: Files, ciOrder: seq<string>, prod: Option<TargetsMeta>,
    root: Root, onlinePub: string, offline: set<string>)
    requires Enumerates(ciOrder, ci)
    requires InitWave(name, versionArg, tag, expires, prune, sourceTag, ci, ciOrder, prod, root, onlinePub, offline).Ok?
    ensures var merged := BaseTargets(prod) + Promoted(ci, ci.Keys, sourceTag, tag);
      var files := InitWave(name, versionArg, tag, expires, prune, sourceTag, ci, ciOrder, prod, root, onlinePub, offline).value.targets.targets;
      && !MergeFails(BaseTargets(prod), ci, ci.Keys, sourceTag)
      && (|prune| == 0 ==> files == merged)
      && (|prune| > 0 ==> AllDecode(merged) && |Missing(merged, prune)| == 0 && files == Kept(merged, prune))
  {
    BuildTargetsMeaning(BaseTargets(prod), ci, ciOrder, sourceTag, tag, prune, versionArg);
  }

  /** Whether a wave is created, and the wave itself, do not depend on the order Go visits the CI targets in. */
  lemma InitWaveOrderIndependent(
    name: string, versionArg: string, tag: string, expires: int,
    prune: seq<string>, sourceTag: string,
    ci: Files, order1: seq<string>, order2: seq<string>, prod: Option<TargetsMeta>,
    root: Root, onlinePub: string, offline: set<string>)
    requires Enumerates(order1, ci) && Enumerates(order2, ci)
    ensures var r1 := InitWave(name, versionArg, tag, expires, prune, sourceTag, ci, order1, prod, root, onlinePub, offline);
      var r2 := InitWave(name, versionArg, tag, expires, prune, sourceTag, ci, order2, prod, root, onlinePub, offline);
      (r1.Ok? <==> r2.Ok?) && (r1.Ok? ==> r1 == r2)
  {
    match Decimal.ParseInt(versionArg, 32)
    case Err(_) =>
    case Ok(v) =>
      CreateWaveOrderIndependent(name, versionArg, v, tag, expires, prune, sourceTag, ci, order1, order2, prod, root, onlinePub, offline);
  }

  /** A wave is created exactly when none of the checks of `doInitWave` fires: the version is a
      32-bit integer, there are CI targets, the version is above production, the merge and the prune
      go through, and some `targets` key other than the online one is held offline. */
  lemma InitWaveSucceeds(
    name: string, versionArg: string, tag: string, expires: int,
    prune: seq<string>, sourceTag: string,
    ci: Files, ciOrder: seq<string>, prod: Option<TargetsMeta>,
    root: Root, onlinePub: string, offline: set<string>)
    requires Enumerates(ciOrder, ci)
    ensures var merged := BaseTargets(prod) + Promoted(ci, ci.Keys, sourceTag, tag);
      InitWave(name, versionArg, tag, expires, prune, sourceTag, ci, ciOrder, prod, root, onlinePub, offline).Ok? <==>
        && Decimal.ParseInt(versionArg, 32).Ok?
        && |ci| > 0
        && (prod.Some? ==> prod.value.version < Decimal.ParseInt(versionArg, 32).value)
        && !MergeFails(BaseTargets(prod), ci, ci.Keys, sourceTag)
        && (|prune| > 0 ==> versionArg !in prune && AllDecode(merged) && |Missing(merged, prune)| == 0)
        && (exists k :: k in TargetsKeyIds(root) && k in offline && PublicOf(root, k) != onlinePub)
  {
    match Decimal.ParseInt(versionArg, 32)
    case Err(_) =>
    case Ok(v) =>
      CreateWaveSucceeds(name, versionArg, v, tag, expires, prune, sourceTag, ci, ciOrder, prod, root, onlinePub, offline);
  }

  /** `wave init` with `--prune` labels that match nothing fails with exactly those labels, in request
      order, once the earlier checks have passed and every merged annotation decodes. */
  lemma InitWaveReportsUnmatched(
    name: string, versionArg: string, tag: string, expires: int,
    prune: seq<string>, sourceTag: string,
    ci: Files, ciOrder: seq<string>, prod: Option<TargetsMeta>,
    root: Root, onlinePub: string, offline: set<string>)
    requires Enumerates(ciOrder, ci)
    requires Decimal.ParseInt(versionArg, 32).Ok? && |ci| > 0
    requires prod.Some? ==> prod.value.version < Decimal.ParseInt(versionArg, 32).value
    requires !MergeFails(BaseTargets(prod), ci, ci.Keys, sourceTag)
    requires |prune| > 0 && versionArg !in prune
    requires AllDecode(BaseTargets(prod) + Promoted(ci, ci.Keys, sourceTag, tag))
    ensures var merged := BaseTargets(prod) + Promoted(ci, ci.Keys, sourceTag, tag);
      |Missing(merged, prune)| > 0 ==>
        InitWave(name, versionArg, tag, expires, prune, sourceTag, ci, ciOrder, prod, root, onlinePub, offline)
        == Err(PruneNotFound(Missing(merged, prune)))
  {
    BuildTargetsErrors(BaseTargets(prod), ci, ciOrder, sourceTag, tag, prune, versionArg);
  }

  /** The worked example `fioctl wave init wave-16 16 production`: production holds version 10 with
      `app-v10`, CI holds `app-v16` tagged `ci`, the `targets` role lists keys A and B, B is the
      online key and the offline credentials hold A. */
  const ExampleApp10: FileMeta := FileMeta(1, map[], Fields(map[TagsKey := Array([Str("production")]), VersionKey := Str("10")]))
  const ExampleApp16: FileMeta := FileMeta(1, map[], Fields(map[TagsKey := Array([Str("ci")]), VersionKey := Str("16")]))
  const ExampleProd: Option<TargetsMeta> := Some(TargetsMeta(TargetsType, 0, 10, map["app-v10" := ExampleApp10]))
  const ExampleRoot: Root := Root(map[TargetsRole := RootRole(1, ["A", "B"])],
                                  map["A" := Key("ed25519", "pa"), "B" := Key("ed25519", "pb")])

  lemma ExampleVersionParses()
    ensures Decimal.ParseInt("16", 32) == Ok(16)
  {
    assert Decimal.Unsigned("16") == "16";
    assert "16"[..1] == "1" && "1"[..0] == "";
    assert Decimal.DigitsValue("1") == 1;
    assert Decimal.DigitsValue("16") == 16;
    assert Decimal.IsDecimal("16") && Decimal.DecimalValue("16") == 16;
    assert Decimal.InIntRange(16, 32);
  }

  lemma ExampleSigner()
    ensures SelectSigner(ExampleRoot, "pb", {"A"}) == Ok("A")
  {
    assert TargetsKeyIds(ExampleRoot) == ["A", "B"];
    assert ["A", "B"][1..] == ["B"] && ["B"][1..] == [];
    assert PublicOf(ExampleRoot, "A") == "pa" && PublicOf(ExampleRoot, "B") == "pb";
    assert OfflineKeyIds(ExampleRoot, ["B"], "pb") == [];
    assert OfflineKeyIds(ExampleRoot, ["A", "B"], "pb") == ["A"];
  }

  lemma ExampleBuild()
    ensures BuildTargets(map["app-v10" := ExampleApp10], map["app-v16" := ExampleApp16], ["app-v16"], "", "production", [], "16")
      == Ok(map["app-v10" := ExampleApp10, "app-v16" := Promote(ExampleApp16, "production")])
  {
    var ci := map["app-v16" := ExampleApp16];
    assert Enumerates(["app-v16"], ci);
    var acc := map["app-v10" := ExampleApp10];
    assert MergeInOrder(acc, ci, ["app-v16"], "", "production")
      == MergeInOrder(acc["app-v16" := Promote(ExampleApp16, "production")], ci, [], "", "production");
  }

  lemma ExampleCreate()
    ensures CreateWave("wave-16", "16", 16, "production", 0, [], "", map["app-v16" := ExampleApp16], ["app-v16"],
                       ExampleProd, ExampleRoot, "pb", {"A"})
      == Ok(Wave("wave-16", "16", "production",
                 TargetsMeta(TargetsType, 0, 16, map["app-v10" := ExampleApp10, "app-v16" := Promote(ExampleApp16, "production")]),
                 "A"))
  {
    assert Enumerates(["app-v16"], map["app-v16" := ExampleApp16]);
    assert BaseTargets(ExampleProd) == map["app-v10" := ExampleApp10];
    ExampleSigner();
    ExampleBuild();
  }

  const ExampleWave: Wave :=
    Wave("wave-16", "16", "production",
         TargetsMeta(TargetsType, 0, 16, map["app-v10" := ExampleApp10, "app-v16" := Promote(ExampleApp16, "production")]),
         "A")

  /** The worked example: the wave holds both targets, `app-v16` is now tagged `production`, the
      document has version 16, and A signs. */
  lemma InitWaveExample()
    ensures var r := InitWave("wave-16", "16", "production", 0, [], "", map["app-v16" := ExampleApp16], ["app-v16"],
                              ExampleProd, ExampleRoot, "pb", {"A"});
      && r.Ok?
      && r.value.targets.targets.Keys == {"app-v10", "app-v16"}
      && r.value.targets.version == 16
      && TargetCustom(r.value.targets.targets["app-v16"].custom) == Ok(TufCustom(["production"], "16", false))
      && r.value.signer == "A"
  {
    ExampleInit();
    ExampleWaveContents();
  }

  lemma ExampleInit()
    ensures InitWave("wave-16", "16", "production", 0, [], "", map["app-v16" := ExampleApp16], ["app-v16"],
                     ExampleProd, ExampleRoot, "pb", {"A"}) == Ok(ExampleWave)
  {
    assert Enumerates(["app-v16"], map["app-v16" := ExampleApp16]);
    ExampleVersionParses();
    ExampleCreate();
  }

  lemma ExampleWaveContents()
    ensures ExampleWave.targets.targets.Keys == {"app-v10", "app-v16"}
    ensures TargetCustom(ExampleWave.targets.targets["app-v16"].custom) == Ok(TufCustom(["production"], "16", false))
  {
    ExamplePromotedTags();
  }

  lemma ExamplePromotedTags()
    ensures TargetCustom(Promote(ExampleApp16, "production").custom) == Ok(TufCustom(["production"], "16", false))
  {
    ReplaceTagsReadBack(ExampleApp16.custom, "production");
    assert DecodeVersion(ExampleApp16.custom.fields) == Ok("16");
    assert DecodeDeltaStats(ExampleApp16.custom.fields) == Ok(false);
  }

  /** A CI target whose name is already a production target of the tag stops the wave, whatever the
      source-tag filter says about it. */
  lemma InitWaveRejectsExisting(
    name: string, versionArg: string, tag: string, expires: int,
    prune: seq<string>, sourceTag: string,
    ci: Files, ciOrder: seq<string>, prod: Option<TargetsMeta>,
    root: Root, onlinePub: string, offline: set<string>, target: string)
    requires Enumerates(ciOrder, ci)
    requires prod.Some? && target in ci && target in prod.value.targets
    ensures InitWave(name, versionArg, tag, expires, prune, sourceTag, ci, ciOrder, prod, root, onlinePub, offline).Err?
  {
    MergeRejectsExisting(BaseTargets(prod), ci, ciOrder, sourceTag, tag, target);
  }

  /** Without a production document the new one holds exactly the selected CI targets (before pruning). */
  lemma InitWaveFirstWave(
    name: string, versionArg: string, tag: string, expires: int,
    sourceTag: string, ci: Files, ciOrder: seq<string>,
    root: Root, onlinePub: string, offline: set<string>)
    requires Enumerates(ciOrder, ci)
    requires InitWave(name, versionArg, tag, expires, [], sourceTag, ci, ciOrder, None, root, onlinePub, offline).Ok?
    ensures InitWave(name, versionArg, tag, expires, [], sourceTag, ci, ciOrder, None, root, onlinePub, offline).value.targets.targets.Keys
      == set n | n in ci && Picks(ci[n], sourceTag)
  {
    InitWaveTargets(name, versionArg, tag, expires, [], sourceTag, ci, ciOrder, None, root, onlinePub, offline);
    MergeContents(map[], ci, ciOrder, sourceTag, tag);
  }

  /** A filter that selects nothing adds nothing to the base. */
  lemma NothingPromoted(base: Files, ci: Files, sourceTag: string, tag: string)
    requires forall n :: n in ci ==> !Picks(ci[n], sourceTag)
    ensures base + Promoted(ci, ci.Keys, sourceTag, tag) == base
  {
    assert Promoted(ci, ci.Keys, sourceTag, tag) == map[];
    assert base + map[] == base;
  }

  /** When the source-tag filter selects no CI target and nothing is pruned, the production targets
      carry over unchanged; only the version and expiry are new. */
  lemma InitWaveNothingSelected(
    name: string, versionArg: string, tag: string, expires: int,
    sourceTag: string, ci: Files, ciOrder: seq<string>, prod: Option<TargetsMeta>,
    root: Root, onlinePub: string, offline: set<string>)
    requires Enumerates(ciOrder, ci)
    requires forall n :: n in ci ==> !Picks(ci[n], sourceTag)
    requires InitWave(name, versionArg, tag, expires, [], sourceTag, ci, ciOrder, prod, root, onlinePub, offline).Ok?
    ensures InitWave(name, versionArg, tag, expires, [], sourceTag, ci, ciOrder, prod, root, onlinePub, offline).value.targets.targets
      == BaseTargets(prod)
  {
    InitWaveTargets(name, versionArg, tag, expires, [], sourceTag, ci, ciOrder, prod, root, onlinePub, offline);
    NothingPromoted(BaseTargets(prod), ci, sourceTag, tag);
  }

  /** `hasStaticDelta`: walk the CI targets in `order`; stop with false at the first without
      static-delta statistics, and with an error at the first whose annotation does not decode. */
  function HasStaticDelta(ci: Files, order: seq<string>): (r: Result<bool, WaveError>)
    requires forall i :: 0 <= i < |order| ==> order[i] in ci
    ensures r == Ok(true) ==> forall i :: 0 <= i < |order| ==>
      TargetCustom(ci[order[i]].custom).Ok? && TargetCustom(ci[order[i]].custom).value.hasDeltaStats
    ensures r == Ok(false) ==> exists i :: 0 <= i < |order| &&
                                 TargetCustom(ci[order[i]].custom).Ok? &&
                                 !TargetCustom(ci[order[i]].custom).value.hasDeltaStats
    ensures r.Err? ==> r.error == BadCustom && exists i :: 0 <= i < |order| && TargetCustom(ci[order[i]].custom).Err?
    ensures (forall i :: 0 <= i < |order| ==> TargetCustom(ci[order[i]].custom).Ok?) ==> r.Ok?
    decreases |order|
  {
    if |order| == 0 then Ok(true)
    else
      match TargetCustom(ci[order[0]].custom)
      case Err(_) => Err(BadCustom)
      case Ok(c) =>
        if !c.hasDeltaStats then Ok(false)
        else
          var r := HasStaticDelta(ci, order[1..]);
          assert forall i :: 1 <= i < |order| ==> order[i] == order[1..][i - 1];
          r
  }

  /** When every CI annotation decodes, the advisory answers whether every CI target has static-delta
      statistics, in any iteration order. */
  lemma HasStaticDeltaMeaning(ci: Files, order: seq<string>)
    requires Enumerates(order, ci)
    requires forall n :: n in ci ==> TargetCustom(ci[n].custom).Ok?
    ensures HasStaticDelta(ci, order) == Ok(forall n :: n in ci ==> TargetCustom(ci[n].custom).value.hasDeltaStats)
  {
    var r := HasStaticDelta(ci, order);
    assert forall i :: 0 <= i < |order| ==> TargetCustom(ci[order[i]].custom).Ok?;
    if r == Ok(true) {
      forall n | n in ci ensures TargetCustom(ci[n].custom).value.hasDeltaStats {
        var i :| 0 <= i < |order| && order[i] == n;
      }
    } else {
      assert r.Ok? && !r.value;
      assert r == Ok(false);
      var i :| 0 <= i < |order| && !TargetCustom(ci[order[i]].custom).value.hasDeltaStats;
      assert !(forall n :: n in ci ==> TargetCustom(ci[n].custom).value.hasDeltaStats);
    }
  }

  /** The CI targets as the advisory sees them after the merge loop. `replaceTags` rewrites the
      annotation through the pointer the CI list shares with the loop's copy, so every promoted
      target carries its rewritten annotation and every other one is untouched. */
  function RewrittenCi(ci: Files, sourceTag: string, tag: string): (r: Files)
    ensures r.Keys == ci.Keys
    ensures forall n :: n in ci && Picks(ci[n], sourceTag) && ci[n].custom.Fields? ==> r[n] == Promote(ci[n], tag)
    ensures forall n :: n in ci && !(Picks(ci[n], sourceTag) && ci[n].custom.Fields?) ==> r[n] == ci[n]
  {
    ci + Promoted(ci, ci.Keys, sourceTag, tag)
  }

  /** The typed view of CI target `n` as the advisory reads it. */
  function Reads(ci: Files, sourceTag: string, tag: string, n: string): Result<TufCustom, CustomError>
    requires n in ci
  {
    TargetCustom(RewrittenCi(ci, sourceTag, tag)[n].custom)
  }

  /** The advisory after submission: `hasStaticDelta` over the rewritten CI targets, visited in
      `order`, a map iteration of its own. `Ok(true)` means the warning is printed. */
  function StaticDeltaWarning(ci: Files, order: seq<string>, sourceTag: string, tag: string)
    : (r: Result<bool, WaveError>)
    requires Enumerates(order, ci)
    ensures r.Err? ==> r.error == BadCustom && exists n :: n in ci && Reads(ci, sourceTag, tag, n).Err?
    ensures r == Ok(true) ==> exists n :: n in ci && Reads(ci, sourceTag, tag, n).Ok? && !Reads(ci, sourceTag, tag, n).value.hasDeltaStats
    ensures r == Ok(false) ==> forall n :: n in ci ==> Reads(ci, sourceTag, tag, n).Ok? && Reads(ci, sourceTag, tag, n).value.hasDeltaStats
  {
    var seen := RewrittenCi(ci, sourceTag, tag);
    match HasStaticDelta(seen, order)
    case Err(e) => Err(e)
    case Ok(all) => Ok(!all)
  }

  /** The whole command: a wave is built and submitted (submission is left to the caller), then the
      advisory runs; its failure ends the command but does not undo the wave. */
  function InitWaveCommand(
    name: string, versionArg: string, tag: string, expires: int,
    prune: seq<string>, sourceTag: string,
    ci: Files, ciOrder: seq<string>, prod: Option<TargetsMeta>,
    root: Root, onlinePub: string, offline: set<string>, deltaOrder: seq<string>): (r: Result<Submission, WaveError>)
    requires Enumerates(ciOrder, ci) && Enumerates(deltaOrder, ci)
    ensures r.Ok? <==> InitWave(name, versionArg, tag, expires, prune, sourceTag, ci, ciOrder, prod, root, onlinePub, offline).Ok?
    ensures r.Err? ==> InitWave(name, versionArg, tag, expires, prune, sourceTag, ci, ciOrder, prod, root, onlinePub, offline) == Err(r.error)
    ensures r.Ok? ==> r.value.wave == InitWave(name, versionArg, tag, expires, prune, sourceTag, ci, ciOrder, prod, root, onlinePub, offline).value
    ensures r.Ok? ==> r.value.warnNoStaticDelta == StaticDeltaWarning(ci, deltaOrder, sourceTag, tag)
    ensures r.Ok? ==> forall n :: n in ci && Picks(ci[n], sourceTag) ==> ci[n].custom.Fields?
  {
    match InitWave(name, versionArg, tag, expires, prune, sourceTag, ci, ciOrder, prod, root, onlinePub, offline)
    case Err(e) => Err(e)
    case Ok(w) =>
      InitWaveTargets(name, versionArg, tag, expires, prune, sourceTag, ci, ciOrder, prod, root, onlinePub, offline);
      Ok(Submission(w, StaticDeltaWarning(ci, deltaOrder, sourceTag, tag)))
  }

  /** Without a source tag a CI target's rewritten annotation decodes exactly when its version label
      and statistics do, and it has statistics exactly when the listed annotation has them. */
  lemma RewrittenReadsBack(ci: Files, tag: string, n: string)
    requires n in ci && ci[n].custom.Fields?
    ensures var c := TargetCustom(RewrittenCi(ci, "", tag)[n].custom);
      && (c.Ok? <==> DecodeVersion(ci[n].custom.fields).Ok? && DecodeDeltaStats(ci[n].custom.fields).Ok?)
      && (c.Ok? ==> c.value.hasDeltaStats == DecodeDeltaStats(ci[n].custom.fields).value)
  {
    assert RewrittenCi(ci, "", tag)[n] == Promote(ci[n], tag);
    ReplaceTagsReadBack(ci[n].custom, tag);
  }

  /** Without a source tag every CI target is promoted, so the advisory reads only the rewritten
      annotations and their old `tags` fields play no part. When every version label and statistics
      field decodes, it warns exactly when some CI target lacks statistics; it fails only because one
      of those fields does not decode. */
  lemma StaticDeltaWarningNoSourceTag(ci: Files, order: seq<string>, tag: string)
    requires Enumerates(order, ci)
    requires forall n :: n in ci ==> ci[n].custom.Fields?
    ensures (forall n :: n in ci ==> DecodeVersion(ci[n].custom.fields).Ok? && DecodeDeltaStats(ci[n].custom.fields).Ok?)
      ==> StaticDeltaWarning(ci, order, "", tag) == Ok(exists n :: n in ci && !DecodeDeltaStats(ci[n].custom.fields).value)
    ensures StaticDeltaWarning(ci, order, "", tag).Err? ==>
      exists n :: n in ci && !(DecodeVersion(ci[n].custom.fields).Ok? && DecodeDeltaStats(ci[n].custom.fields).Ok?)
  {
    var seen := RewrittenCi(ci, "", tag);
    var r := StaticDeltaWarning(ci, order, "", tag);
    if r.Err? {
      var n :| n in ci && TargetCustom(seen[n].custom).Err?;
      RewrittenReadsBack(ci, tag, n);
    }
    if forall n :: n in ci ==> DecodeVersion(ci[n].custom.fields).Ok? && DecodeDeltaStats(ci[n].custom.fields).Ok? {
      forall n | n in ci
        ensures TargetCustom(seen[n].custom).Ok?
        ensures TargetCustom(seen[n].custom).value.hasDeltaStats == DecodeDeltaStats(ci[n].custom.fields).value
      {
        RewrittenReadsBack(ci, tag, n);
      }
      HasStaticDeltaMeaning(seen, order);
    }
  }

  /** The advisory reads the annotation as rewritten, not as listed: a CI target whose `tags` is a
      bare string cannot be decoded as listed, yet after promotion it decodes and carries statistics. */
  lemma StaticDeltaSeesRewrite()
    ensures var ci := map["t" := FileMeta(1, map[], Fields(map[TagsKey := Str("ci"), DeltaStatsKey := Object(map[])]))];
      && HasStaticDelta(ci, ["t"]) == Err(BadCustom)
      && StaticDeltaWarning(ci, ["t"], "", "prod") == Ok(false)
  {
    var raw := Fields(map[TagsKey := Str("ci"), DeltaStatsKey := Object(map[])]);
    var ci := map["t" := FileMeta(1, map[], raw)];
    assert DecodeTags(raw.fields).Err?;
    ReplaceTagsReadBack(raw, "prod");
    assert DecodeVersion(raw.fields) == Ok("");
    assert DecodeDeltaStats(raw.fields) == Ok(true);
    StaticDeltaWarningNoSourceTag(ci, ["t"], "prod");
  }
}

=== FILE: wave_merge.dfy ===
/** The merge loop of `doInitWave`: CI targets of the requested version are promoted into the
    production targets of a tag. Go visits the CI map in an unspecified order; here that order is the
    parameter `order`, and the lemmas show the outcome does not depend on it. */
module WaveMerge {
  import opened Wrappers
  import opened Tuf
  import opened Custom
  import opened Waves

  /** `order` lists every key of `m` exactly once. */
  predicate Enumerates(order: seq<string>, m: Files) {
    && (forall i :: 0 <= i < |order| ==> order[i] in m)
    && (forall n :: n in m ==> n in order)
    && Distinct(order)
  }

  predicate Distinct(order: seq<string>) {
    forall i, j :: 0 <= i < j < |order| ==> order[i] != order[j]
  }

  /** The `--source-tag` filter: no filter, or the target's decoded tags contain `sourceTag`. */
  predicate Picks(file: FileMeta, sourceTag: string) {
    |sourceTag| == 0 || (TargetCustom(file.custom).Ok? && sourceTag in TargetCustom(file.custom).value.tags)
  }

  /** The promoted copy of a CI target: its tags replaced by `[tag]`. */
  function Promote(file: FileMeta, tag: string): (r: FileMeta)
    requires file.custom.Fields?
    ensures r.length == file.length && r.hashes == file.hashes && r.custom.Fields?
    ensures r.custom.fields.Keys == file.custom.fields.Keys + {TagsKey}
    ensures r.custom.fields[TagsKey] == Array([Str(tag)])
    ensures forall k :: k in file.custom.fields && k != TagsKey ==> r.custom.fields[k] == file.custom.fields[k]
  {
    ReplaceFileTags(file, tag).value
  }

  /** A promoted target is selected by its new tag and by no other non-empty source tag. */
  lemma PromotedPicksTag(file: FileMeta, tag: string, other: string)
    requires file.custom.Fields? && TargetCustom(file.custom).Ok?
    ensures Picks(Promote(file, tag), tag)
    ensures |other| > 0 && other != tag ==> !Picks(Promote(file, tag), other)
  {
    ReplaceTagsDecodes(file.custom, tag);
  }

  /** The loop body of `doInitWave` applied to the names in `order`, in that order, on top of `acc`. */
  function MergeInOrder(acc: Files, ci: Files, order: seq<string>, sourceTag: string, tag: string)
    : (r: Result<Files, WaveError>)
    requires forall i :: 0 <= i < |order| ==> order[i] in ci
    ensures r.Ok? ==> acc.Keys <= r.value.Keys
    ensures r.Err? && r.error.TargetExists? ==>
      r.error.tag == tag && r.error.name in order && r.error.name in ci
    ensures r.Err? && r.error.TargetExists? && Distinct(order) ==> r.error.name in acc
    ensures r.Err? && r.error.BadCustom? ==>
      |sourceTag| > 0 && exists n :: n in order && TargetCustom(ci[n].custom).Err?
    ensures r.Err? && r.error.MalformedCustom? ==>
      r.error.name in order && Picks(ci[r.error.name], sourceTag) && !ci[r.error.name].custom.Fields?
    ensures r.Err? ==> r.error.TargetExists? || r.error.BadCustom? || r.error.MalformedCustom?
    decreases |order|
  {
    if |order| == 0 then Ok(acc)
    else
      var name := order[0];
      var file := ci[name];
      if name in acc then
        Err(TargetExists(name, tag))
      else if |sourceTag| > 0 && TargetCustom(file.custom).Err? then
        Err(BadCustom)
      else if !Picks(file, sourceTag) then
        MergeInOrder(acc, ci, order[1..], sourceTag, tag)
      else
        match ReplaceFileTags(file, tag)
        case Err(_) => Err(MalformedCustom(name))
        case Ok(promoted) => MergeInOrder(acc[name := promoted], ci, order[1..], sourceTag, tag)
  }

  /** Some name of `names` is already a production target. */
  predicate Clash(prod: Files, names: set<string>) {
    exists n :: n in names && n in prod
  }

  /** With a source tag, some CI target's annotation does not decode. */
  predicate Undecodable(ci: Files, names: set<string>, sourceTag: string) {
    |sourceTag| > 0 && exists n :: n in names && n in ci && TargetCustom(ci[n].custom).Err?
  }

  /** Some selected CI target has an annotation `replaceTags` cannot rewrite. */
  predicate Unpromotable(ci: Files, names: set<string>, sourceTag: string) {
    exists n :: n in names && n in ci && Picks(ci[n], sourceTag) && !ci[n].custom.Fields?
  }

  predicate MergeFails(prod: Files, ci: Files, names: set<string>, sourceTag: string) {
    Clash(prod, names) || Undecodable(ci, names, sourceTag) || Unpromotable(ci, names, sourceTag)
  }

  /** The CI targets of `names` the filter selects, promoted. */
  function Promoted(ci: Files, names: set<string>, sourceTag: string, tag: string): Files
  {
    map n | n in names && n in ci && Picks(ci[n], sourceTag) && ci[n].custom.Fields? :: Promote(ci[n], tag)
  }

  /** Splitting the first name off a list of distinct names. */
  lemma SplitFirst(order: seq<string>)
    requires |order| > 0 && Distinct(order)
    ensures (set n | n in order) == {order[0]} + (set n | n in order[1..])
    ensures order[0] !in order[1..]
    ensures Distinct(order[1..])
  {
    var rest := order[1..];
    forall j | 0 <= j < |rest| ensures rest[j] != order[0] {
      assert rest[j] == order[j + 1];
    }
    forall i, j | 0 <= i < j < |rest| ensures rest[i] != rest[j] {
      assert rest[i] == order[i + 1] && rest[j] == order[j + 1];
    }
    assert forall n :: n in order <==> n == order[0] || n in rest;
  }

  /** A CI target the filter skips changes neither the failure conditions nor the promoted set. */
  lemma SkipStep(acc: Files, ci: Files, name: string, rest: set<string>, sourceTag: string, tag: string)
    requires name in ci && name !in acc && !Picks(ci[name], sourceTag)
    requires |sourceTag| > 0 ==> TargetCustom(ci[name].custom).Ok?
    ensures MergeFails(acc, ci, {name} + rest, sourceTag) <==> MergeFails(acc, ci, rest, sourceTag)
    ensures Promoted(ci, {name} + rest, sourceTag, tag) == Promoted(ci, rest, sourceTag, tag)
  {
    var names := {name} + rest;
    assert Clash(acc, names) <==> Clash(acc, rest);
    assert Undecodable(ci, names, sourceTag) <==> Undecodable(ci, rest, sourceTag);
    assert Unpromotable(ci, names, sourceTag) <==> Unpromotable(ci, rest, sourceTag);
  }

  /** A promoted CI target leaves the failure conditions for the remaining names unchanged. */
  lemma PromoteStepFails(acc: Files, ci: Files, name: string, rest: set<string>, sourceTag: string, tag: string)
    requires name in ci && name !in acc && name !in rest && Picks(ci[name], sourceTag) && ci[name].custom.Fields?
    requires |sourceTag| > 0 ==> TargetCustom(ci[name].custom).Ok?
    ensures MergeFails(acc, ci, {name} + rest, sourceTag) <==>
      MergeFails(acc[name := Promote(ci[name], tag)], ci, rest, sourceTag)
  {
    var names := {name} + rest;
    var acc' := acc[name := Promote(ci[name], tag)];
    assert Clash(acc', rest) <==> Clash(acc, rest);
    assert Clash(acc, names) <==> Clash(acc, rest);
    assert Undecodable(ci, names, sourceTag) <==> Undecodable(ci, rest, sourceTag);
    assert Unpromotable(ci, names, sourceTag) <==> Unpromotable(ci, rest, sourceTag);
  }

  /** Adding a selected name to the promoted set adds its promoted copy. */
  lemma PromotedInsert(ci: Files, name: string, rest: set<string>, sourceTag: string, tag: string)
    requires name in ci && name !in rest && Picks(ci[name], sourceTag) && ci[name].custom.Fields?
    ensures name !in Promoted(ci, rest, sourceTag, tag)
    ensures Promoted(ci, {name} + rest, sourceTag, tag) == Promoted(ci, rest, sourceTag, tag)[name := Promote(ci[name], tag)]
  {
    var small := Promoted(ci, rest, sourceTag, tag);
    var big := Promoted(ci, {name} + rest, sourceTag, tag);
    assert big.Keys == small.Keys + {name};
  }

  /** Writing a key before or after a union with a map that lacks it gives the same map. */
  lemma UpdateThenUnion(acc: Files, m: Files, name: string, p: FileMeta)
    requires name !in m
    ensures acc[name := p] + m == acc + m[name := p]
  {
    var lhs := acc[name := p] + m;
    var rhs := acc + m[name := p];
    assert lhs.Keys == rhs.Keys;
  }

  /** A promoted CI target joins the accumulated map. */
  lemma PromoteStepValue(acc: Files, ci: Files, name: string, rest: set<string>, sourceTag: string, tag: string)
    requires name in ci && name !in acc && name !in rest && Picks(ci[name], sourceTag) && ci[name].custom.Fields?
    ensures acc[name := Promote(ci[name], tag)] + Promoted(ci, rest, sourceTag, tag)
      == acc + Promoted(ci, {name} + rest, sourceTag, tag)
  {
    PromotedInsert(ci, name, rest, sourceTag, tag);
    UpdateThenUnion(acc, Promoted(ci, rest, sourceTag, tag), name, Promote(ci[name], tag));
  }

  /** The loop fails exactly when a name clashes, an annotation does not decode under a source tag,
      or a selected annotation cannot be rewritten; otherwise it adds exactly the promoted selection. */
  lemma {:induction false} MergeInOrderMeaning(acc: Files, ci: Files, order: seq<string>, sourceTag: string, tag: string)
    requires forall i :: 0 <= i < |order| ==> order[i] in ci
    requires Distinct(order)
    ensures var names := set n | n in order;
      && (MergeInOrder(acc, ci, order, sourceTag, tag).Ok? <==> !MergeFails(acc, ci, names, sourceTag))
      && (MergeInOrder(acc, ci, order, sourceTag, tag).Ok? ==>
            MergeInOrder(acc, ci, order, sourceTag, tag).value == acc + Promoted(ci, names, sourceTag, tag))
    decreases |order|
  {
    var names := set n | n in order;
    if |order| == 0 {
      assert names == {};
      assert Promoted(ci, names, sourceTag, tag) == map[];
      assert acc + map[] == acc;
    } else {
      var name := order[0];
      var rest := order[1..];
      var restNames := set n | n in rest;
      SplitFirst(order);
      var file := ci[name];
      if name in acc {
        assert Clash(acc, names);
      } else if |sourceTag| > 0 && TargetCustom(file.custom).Err? {
        assert Undecodable(ci, names, sourceTag);
      } else if !Picks(file, sourceTag) {
        MergeInOrderMeaning(acc, ci, rest, sourceTag, tag);
        SkipStep(acc, ci, name, restNames, sourceTag, tag);
      } else if !file.custom.Fields? {
        assert Unpromotable(ci, names, sourceTag);
      } else {
        MergeInOrderMeaning(acc[name := Promote(file, tag)], ci, rest, sourceTag, tag);
        PromoteStepFails(acc, ci, name, restNames, sourceTag, tag);
        PromoteStepValue(acc, ci, name, restNames, sourceTag, tag);
      }
    }
  }

  /** The whole merge over every CI target, in any iteration order. */
  lemma MergeOrderIndependent(prod: Files, ci: Files, order: seq<string>, sourceTag: string, tag: string)
    requires Enumerates(order, ci)
    ensures MergeInOrder(prod, ci, order, sourceTag, tag).Ok? <==> !MergeFails(prod, ci, ci.Keys, sourceTag)
    ensures MergeInOrder(prod, ci, order, sourceTag, tag).Ok? ==>
      MergeInOrder(prod, ci, order, sourceTag, tag).value == prod + Promoted(ci, ci.Keys, sourceTag, tag)
  {
    MergeInOrderMeaning(prod, ci, order, sourceTag, tag);
    assert (set n | n in order) == ci.Keys;
  }

  /** A CI target whose name is already in production fails the merge, even one the source-tag
      filter would have skipped. */
  lemma MergeRejectsExisting(prod: Files, ci: Files, order: seq<string>, sourceTag: string, tag: string, name: string)
    requires Enumerates(order, ci)
    requires name in ci && name in prod
    ensures MergeInOrder(prod, ci, order, sourceTag, tag).Err?
  {
    MergeOrderIndependent(prod, ci, order, sourceTag, tag);
    assert Clash(prod, ci.Keys);
  }

  /** A successful merge keeps every production target and adds exactly the selected CI targets,
      each promoted: tags `[tag]`, everything else of its annotation as before. */
  lemma MergeContents(prod: Files, ci: Files, order: seq<string>, sourceTag: string, tag: string)
    requires Enumerates(order, ci)
    requires MergeInOrder(prod, ci, order, sourceTag, tag).Ok?
    ensures var merged := MergeInOrder(prod, ci, order, sourceTag, tag).value;
      && merged.Keys == prod.Keys + (set n | n in ci && Picks(ci[n], sourceTag))
      && (forall n :: n in prod ==> merged[n] == prod[n])
      && (forall n :: n in ci && Picks(ci[n], sourceTag) ==> ci[n].custom.Fields?)
      && (forall n :: n in ci && Picks(ci[n], sourceTag) && ci[n].custom.Fields? ==>
            merged[n] == Promote(ci[n], tag))
      && (|sourceTag| == 0 ==> merged.Keys == prod.Keys + ci.Keys)
  {
    MergeOrderIndependent(prod, ci, order, sourceTag, tag);
    assert !Clash(prod, ci.Keys);
    assert !Unpromotable(ci, ci.Keys, sourceTag);
  }
}

=== FILE: wave_prune.dfy ===
/** `pruneTargets`: delete every target whose custom `version` label is one of the requested labels,
    and report every label that matched nothing in one error. */
module WavePrune {
  import opened Wrappers
  import opened Tuf
  import opened Custom
  import opened Waves

  predicate Decodes(file: FileMeta) {
    TargetCustom(file.custom).Ok?
  }

  /** The custom `version` label of a target. */
  function LabelOf(file: FileMeta): string
    requires Decodes(file)
  {
    TargetCustom(file.custom).value.version
  }

  predicate AllDecode(files: Files) {
    forall n :: n in files ==> Decodes(files[n])
  }

  /** One pass of the inner loop for `wanted`: every remaining target is decoded, those labelled
      `wanted` are deleted, and the flag says whether any was. */
  function PruneLabel(files: Files, wanted: string): (r: Result<(Files, bool), WaveError>)
    ensures r.Err? <==> !AllDecode(files)
    ensures r.Err? ==> r.error == BadCustom
    ensures r.Ok? ==> r.value.0 == Kept(files, [wanted])
    ensures r.Ok? ==> (r.value.1 <==> r.value.0.Keys != files.Keys)
  {
    if exists n :: n in files && !Decodes(files[n]) then Err(BadCustom)
    else Ok((map n | n in files && LabelOf(files[n]) != wanted :: files[n],
             exists n :: n in files && LabelOf(files[n]) == wanted))
  }

  /** The outer loop from index `i`, with the labels found missing so far. */
  function PruneLoop(files: Files, versions: seq<string>, i: nat, missing: seq<string>)
    : (r: Result<Files, WaveError>)
    requires i <= |versions|
    ensures r.Ok? ==> |missing| == 0
    ensures r.Ok? ==> r.value.Keys <= files.Keys && forall n :: n in r.value ==> r.value[n] == files[n]
    ensures r.Err? ==> r.error == BadCustom || r.error.PruneNotFound?
    ensures r.Err? && r.error.PruneNotFound? ==>
      && missing <= r.error.labels && |r.error.labels| > 0
      && forall x :: x in r.error.labels ==> x in missing || x in versions[i..]
    decreases |versions| - i
  {
    if i == |versions| then
      if |missing| > 0 then Err(PruneNotFound(missing)) else Ok(files)
    else
      match PruneLabel(files, versions[i])
      case Err(e) => Err(e)
      case Ok((rest, found)) =>
        PruneLoop(rest, versions, i + 1, if found then missing else missing + [versions[i]])
  }

  /** `pruneTargets(targets, versions)`. */
  function PruneTargets(files: Files, versions: seq<string>): (r: Result<Files, WaveError>)
    ensures r.Ok? ==> r.value.Keys <= files.Keys && forall n :: n in r.value ==> r.value[n] == files[n]
    ensures r.Err? ==> r.error == BadCustom || r.error.PruneNotFound?
    ensures r.Err? && r.error.PruneNotFound? ==>
      |r.error.labels| > 0 && forall x :: x in r.error.labels ==> x in versions
  {
    PruneLoop(files, versions, 0, [])
  }

  /** The targets whose label is none of `labels`. */
  function Kept(files: Files, labels: seq<string>): Files
  {
    map n | n in files && Decodes(files[n]) && LabelOf(files[n]) !in labels :: files[n]
  }

  /** Label `i` is reported: no target carries it, or an earlier request already deleted its targets. */
  predicate Unmatched(files: Files, versions: seq<string>, i: nat)
    requires AllDecode(files) && i < |versions|
  {
    versions[i] in versions[..i] || !(exists n :: n in files && LabelOf(files[n]) == versions[i])
  }

  /** The reported labels, in request order. */
  function Missing(files: Files, versions: seq<string>): seq<string>
    requires AllDecode(files)
  {
    if |versions| == 0 then []
    else
      Missing(files, versions[..|versions| - 1])
      + (if Unmatched(files, versions, |versions| - 1) then [versions[|versions| - 1]] else [])
  }

  /** A label is reported exactly when one of its requests is `Unmatched`. */
  lemma {:induction false} MissingAreUnmatched(files: Files, versions: seq<string>, x: string)
    requires AllDecode(files)
    ensures x in Missing(files, versions) <==> exists i :: 0 <= i < |versions| && versions[i] == x && Unmatched(files, versions, i)
    decreases |versions|
  {
    if |versions| > 0 {
      var init := versions[..|versions| - 1];
      MissingAreUnmatched(files, init, x);
      forall i | 0 <= i < |init|
        ensures Unmatched(files, init, i) <==> Unmatched(files, versions, i)
      {
        assert init[..i] == versions[..i];
      }
      if x in Missing(files, versions) && x !in Missing(files, init) {
        assert Unmatched(files, versions, |versions| - 1);
      }
    }
  }

  lemma KeptStep(files: Files, versions: seq<string>, i: nat)
    requires AllDecode(files) && i < |versions|
    ensures AllDecode(Kept(files, versions[..i]))
    ensures PruneLabel(Kept(files, versions[..i]), versions[i])
      == Ok((Kept(files, versions[..i + 1]), !Unmatched(files, versions, i)))
  {
    var cur := Kept(files, versions[..i]);
    var v := versions[i];
    assert versions[..i + 1] == versions[..i] + [v];
    assert Kept(cur, [v]) == Kept(files, versions[..i + 1]);
    var found := exists n :: n in cur && LabelOf(cur[n]) == v;
    assert PruneLabel(cur, v) == Ok((Kept(cur, [v]), found));
    if found {
      var n :| n in cur && LabelOf(cur[n]) == v;
      assert n in files && LabelOf(files[n]) == v && v !in versions[..i];
    }
    if !Unmatched(files, versions, i) {
      var n :| n in files && LabelOf(files[n]) == v;
      assert n in cur;
    }
  }

  lemma MissingStep(files: Files, versions: seq<string>, i: nat)
    requires AllDecode(files) && i < |versions|
    ensures Missing(files, versions[..i + 1])
      == Missing(files, versions[..i]) + (if Unmatched(files, versions, i) then [versions[i]] else [])
  {
    var prefix := versions[..i + 1];
    assert prefix[..i] == versions[..i];
    assert Unmatched(files, prefix, i) == Unmatched(files, versions, i);
  }

  /** The loop invariant: after `i` requests the map holds `Kept` of those requests and the missing
      list is `Missing` of those requests. */
  lemma {:induction false} PruneLoopMeaning(files: Files, versions: seq<string>, i: nat, missing: seq<string>)
    requires AllDecode(files) && i <= |versions|
    requires missing == Missing(files, versions[..i])
    ensures PruneLoop(Kept(files, versions[..i]), versions, i, missing)
      == if |Missing(files, versions)| > 0 then Err(PruneNotFound(Missing(files, versions)))
         else Ok(Kept(files, versions))
    decreases |versions| - i
  {
    if i == |versions| {
      assert versions[..i] == versions;
    } else {
      KeptStep(files, versions, i);
      MissingStep(files, versions, i);
      var cur := Kept(files, versions[..i]);
      var found := !Unmatched(files, versions, i);
      var missing' := if found then missing else missing + [versions[i]];
      assert PruneLoop(cur, versions, i, missing)
        == PruneLoop(Kept(files, versions[..i + 1]), versions, i + 1, missing');
      PruneLoopMeaning(files, versions, i + 1, missing');
    }
  }

  /** `pruneTargets` fails on an undecodable annotation; otherwise it fails with exactly the labels
      `Missing` lists, and succeeds, deleting exactly the targets with a requested label, when that list is empty. */
  lemma PruneTargetsMeaning(files: Files, versions: seq<string>)
    requires |versions| > 0
    ensures !AllDecode(files) ==> PruneTargets(files, versions) == Err(BadCustom)
    ensures AllDecode(files) && |Missing(files, versions)| > 0 ==>
      PruneTargets(files, versions) == Err(PruneNotFound(Missing(files, versions)))
    ensures AllDecode(files) && |Missing(files, versions)| == 0 ==>
      PruneTargets(files, versions) == Ok(Kept(files, versions))
  {
    if AllDecode(files) {
      assert Kept(files, versions[..0]) == files;
      PruneLoopMeaning(files, versions, 0, []);
    }
  }

  /** After a successful prune no remaining target carries a requested label, and every target
      with another label is kept unchanged. */
  lemma PruneRemovesExactly(files: Files, versions: seq<string>)
    requires |versions| > 0 && PruneTargets(files, versions).Ok?
    ensures AllDecode(files)
    ensures var pruned := PruneTargets(files, versions).value;
      && pruned.Keys <= files.Keys
      && (forall n :: n in pruned ==> pruned[n] == files[n] && LabelOf(files[n]) !in versions)
      && (forall n :: n in files && LabelOf(files[n]) !in versions ==> n in pruned)
  {
    PruneTargetsMeaning(files, versions);
  }

  /** Every requested label that no target carries is reported, so a successful prune matched every label. */
  lemma PruneReportsUnknownLabels(files: Files, versions: seq<string>, i: nat)
    requires AllDecode(files) && i < |versions|
    requires !(exists n :: n in files && LabelOf(files[n]) == versions[i])
    ensures PruneTargets(files, versions).Err? && PruneTargets(files, versions).error.PruneNotFound?
    ensures versions[i] in PruneTargets(files, versions).error.labels
  {
    PruneTargetsMeaning(files, versions);
    MissingAreUnmatched(files, versions, versions[i]);
  }
}

=== FILE: wave_signer.dfy ===
/** Choosing the offline key that signs a wave's targets document (`signTargets`): the `targets`
    role's key IDs whose public key is not the online key, then the first of them held offline. */
module WaveSigner {
  import opened Wrappers
  import opened Tuf
  import opened Waves

  /** The key IDs of the `targets` role, in root-document order; none when the role is absent. */
  function TargetsKeyIds(root: Root): seq<string>
  {
    if TargetsRole in root.roles then root.roles[TargetsRole].keyIds else []
  }

  /** The public key a key ID names; the empty string when the root has no such key. */
  function PublicOf(root: Root, kid: string): string
  {
    if kid in root.keys then root.keys[kid].publicKey else ""
  }

  /** The key IDs of `kids` whose public key differs from `onlinePub`, in the same order. */
  function OfflineKeyIds(root: Root, kids: seq<string>, onlinePub: string): (r: seq<string>)
    ensures forall k :: k in r <==> k in kids && PublicOf(root, k) != onlinePub
    ensures |r| <= |kids|
  {
    if |kids| == 0 then []
    else
      var rest := OfflineKeyIds(root, kids[1..], onlinePub);
      if PublicOf(root, kids[0]) == onlinePub then rest else [kids[0]] + rest
  }

  /** The filter distributes over concatenation, so it keeps the role's order. */
  lemma {:induction false} OfflineKeyIdsAppend(root: Root, a: seq<string>, b: seq<string>, onlinePub: string)
    ensures OfflineKeyIds(root, a + b, onlinePub) == OfflineKeyIds(root, a, onlinePub) + OfflineKeyIds(root, b, onlinePub)
    decreases |a|
  {
    if |a| > 0 {
      assert (a + b)[1..] == a[1..] + b;
      OfflineKeyIdsAppend(root, a[1..], b, onlinePub);
    } else {
      assert a + b == b;
    }
  }

  /** The signer candidates, or the configuration error when the role has no offline key. */
  function SignerKeyIds(root: Root, onlinePub: string): (r: Result<seq<string>, WaveError>)
    ensures r.Err? <==> forall k :: k in TargetsKeyIds(root) ==> PublicOf(root, k) == onlinePub
    ensures r.Err? ==> r.error == NotOfflineSigning
    ensures r.Ok? ==> r.value == OfflineKeyIds(root, TargetsKeyIds(root), onlinePub) && |r.value| > 0
  {
    var kids := OfflineKeyIds(root, TargetsKeyIds(root), onlinePub);
    if |kids| == 0 then Err(NotOfflineSigning)
    else
      assert kids[0] in kids;
      Ok(kids)
  }

  /** How a run of the code ends: it returns, or the Go runtime panics. */
  datatype Run<T> = Returns(value: T) | Panics(reason: string)

  /** `signTargets` as written: `make([]string, 0, len(targetsKids)-1)` panics on a negative
      capacity before the empty-candidates check can report the configuration error. */
  function SignerKeyIdsAsWritten(root: Root, onlinePub: string): (r: Run<Result<seq<string>, WaveError>>)
    ensures r.Panics? <==> |TargetsKeyIds(root)| == 0
    ensures r.Returns? ==> r.value == SignerKeyIds(root, onlinePub)
  {
    if |TargetsKeyIds(root)| - 1 < 0 then Panics("makeslice: cap out of range")
    else Returns(SignerKeyIds(root, onlinePub))
  }

  /** A root whose `targets` role lists no key: the code as written panics where the configuration
      error was evidently meant to be reported. */
  lemma EmptyTargetsRolePanics()
    ensures var root := Root(map[TargetsRole := RootRole(1, [])], map[]);
      && SignerKeyIdsAsWritten(root, "pub").Panics?
      && SignerKeyIds(root, "pub") == Err(NotOfflineSigning)
  {
  }

  /** `keys.FindOneTufSigner`: the first candidate key ID the offline credentials hold. */
  function FindOneSigner(candidates: seq<string>, offline: set<string>): (r: Result<string, WaveError>)
    ensures r.Ok? ==> r.value in candidates && r.value in offline
    ensures r.Ok? ==> exists i :: 0 <= i < |candidates| && candidates[i] == r.value &&
                                (forall j :: 0 <= j < i ==> candidates[j] !in offline)
    ensures r.Err? <==> forall k :: k in candidates ==> k !in offline
    ensures r.Err? ==> r.error == SignerNotFound
  {
    if |candidates| == 0 then Err(SignerNotFound)
    else if candidates[0] in offline then Ok(candidates[0])
    else
      var r := FindOneSigner(candidates[1..], offline);
      if r.Ok? then
        var i :| 0 <= i < |candidates[1..]| && candidates[1..][i] == r.value &&
                 (forall j :: 0 <= j < i ==> candidates[1..][j] !in offline);
        assert candidates[i + 1] == r.value;
        r
      else r
  }

  /** The whole selection: the chosen key belongs to the `targets` role, is held offline, and is not
      the online key. */
  function SelectSigner(root: Root, onlinePub: string, offline: set<string>): (r: Result<string, WaveError>)
    ensures r.Ok? ==> r.value in TargetsKeyIds(root) && r.value in offline && PublicOf(root, r.value) != onlinePub
    ensures r.Ok? <==> exists k :: k in TargetsKeyIds(root) && k in offline && PublicOf(root, k) != onlinePub
    ensures r.Err? ==> r.error == NotOfflineSigning || r.error == SignerNotFound
  {
    var candidates :- SignerKeyIds(root, onlinePub);
    FindOneSigner(candidates, offline)
  }

  /** Key IDs [A, B, C] with B holding the online public key: the candidates are exactly [A, C], and
      with only C held offline, C signs. */
  lemma SignerExample()
    ensures var root := Root(map[TargetsRole := RootRole(1, ["A", "B", "C"])],
                             map["A" := Key("ed25519", "pa"), "B" := Key("ed25519", "pb"), "C" := Key("ed25519", "pc")]);
      && SignerKeyIds(root, "pb") == Ok(["A", "C"])
      && SelectSigner(root, "pb", {"C"}) == Ok("C")
  {
    var root := Root(map[TargetsRole := RootRole(1, ["A", "B", "C"])],
                     map["A" := Key("ed25519", "pa"), "B" := Key("ed25519", "pb"), "C" := Key("ed25519", "pc")]);
    var kids := ["A", "B", "C"];
    assert TargetsKeyIds(root) == kids;
    assert kids[1..] == ["B", "C"] && kids[1..][1..] == ["C"] && kids[1..][1..][1..] == [];
    assert PublicOf(root, "A") == "pa" && PublicOf(root, "B") == "pb" && PublicOf(root, "C") == "pc";
    assert OfflineKeyIds(root, [], "pb") == [];
    assert OfflineKeyIds(root, ["C"], "pb") == ["C"];
    assert OfflineKeyIds(root, ["B", "C"], "pb") == ["C"];
    assert OfflineKeyIds(root, kids, "pb") == ["A", "C"];
  }
}

=== FILE: waves.dfy ===
/** The errors `fioctl wave init` stops with, and the wave it submits. */
module Waves {
  import opened Wrappers
  import opened Tuf
  import Text
  import Decimal

  datatype WaveError =
    | BadVersion(arg: string, cause: Decimal.NumError)
    | NoTargets(version: string)
    | VersionNotNewer
    | TargetExists(name: string, tag: string)
    | BadCustom
    | MalformedCustom(name: string)
    | PruneCurrent
    | PruneNotFound(labels: seq<string>)
    | NotOfflineSigning
    | SignerNotFound

  const NoTargetsPrefix: string := "No targets found for version "
  const TargetExistsPrefix: string := "Target "
  const TargetExistsMiddle: string := " already exists in production Targets for tag "
  const MalformedCiPrefix: string := "Malformed CI Target custom field "
  const PruneNotFoundPrefix: string := "Unable to prune the following versions: "

  /** The text the command prints for each error. */
  function Message(e: WaveError): string
  {
    match e
    case BadVersion(_, _) => "Version must be an integer"
    case NoTargets(v) => NoTargetsPrefix + v
    case VersionNotNewer =>
      "Cannot create a Wave for a version lower than or equal to production Targets for the same tag"
    case TargetExists(n, t) => TargetExistsPrefix + n + TargetExistsMiddle + t
    case BadCustom => "Malformed Target custom field"
    case MalformedCustom(n) => MalformedCiPrefix + n
    case PruneCurrent => "Cannot prune current version"
    case PruneNotFound(labels) => PruneNotFoundPrefix + Text.Join(labels, ",")
    case NotOfflineSigning =>
      "Root role is not configured to sign Targets offline.\n"
      + "Please, run \"fioctl keys tuf rotate-offline-key --role=targets\" in order to create offline Targets keys."
    case SignerNotFound => "Failed to find an offline key for the current targets role"
  }

  /** Every message names what it is about: the version without targets, the clashing target and
      tag, the target whose annotation is malformed, every label that matched nothing. */
  lemma MessageNamesPayload(e: WaveError)
    ensures e.NoTargets? ==> Text.Contains(Message(e), e.version)
    ensures e.TargetExists? ==> Text.Contains(Message(e), e.name) && Text.Contains(Message(e), e.tag)
    ensures e.MalformedCustom? ==> Text.Contains(Message(e), e.name)
    ensures e.PruneNotFound? ==> forall k :: 0 <= k < |e.labels| ==> Text.Contains(Message(e), e.labels[k])
  {
    if e.NoTargets? {
      Text.ContainsSuffix(NoTargetsPrefix, e.version);
    } else if e.TargetExists? {
      Text.ContainsFilled(TargetExistsPrefix, e.name, TargetExistsMiddle, e.tag);
    } else if e.MalformedCustom? {
      Text.ContainsSuffix(MalformedCiPrefix, e.name);
    } else if e.PruneNotFound? {
      PruneMessageNamesLabels(e.labels);
    }
  }

  lemma PruneMessageNamesLabels(labels: seq<string>)
    ensures forall k :: 0 <= k < |labels| ==> Text.Contains(Message(PruneNotFound(labels)), labels[k])
  {
    var joined := Text.Join(labels, ",");
    assert Message(PruneNotFound(labels)) == PruneNotFoundPrefix + joined;
    forall k | 0 <= k < |labels| ensures Text.Contains(PruneNotFoundPrefix + joined, labels[k]) {
      Text.ContainsInRight(PruneNotFoundPrefix, joined, labels[k]);
    }
  }

  /** The `client.WaveCreate` payload; `signer` is the offline key ID that signs `targets`. */
  datatype Wave = Wave(name: string, version: string, tag: string, targets: TargetsMeta, signer: string)

  /** A submitted wave and the outcome of the static-delta advisory that runs after submission:
      `Ok(true)` prints the warning, an error ends the command with the wave already submitted. */
  datatype Submission = Submission(wave: Wave, warnNoStaticDelta: Result<bool, WaveError>)

  /** The labels of a prune error can be read back from its message when none contains a comma. */
  lemma PruneMessageListsLabels(labels: seq<string>)
    requires |labels| >= 1
    requires forall k :: 0 <= k < |labels| ==> ',' !in labels[k]
    ensures Message(PruneNotFound(labels))[..|PruneNotFoundPrefix|] == PruneNotFoundPrefix
    ensures Text.Split(Message(PruneNotFound(labels))[|PruneNotFoundPrefix|..], ',') == labels
  {
    var joined := Text.Join(labels, ",");
    assert Message(PruneNotFound(labels))[|PruneNotFoundPrefix|..] == joined;
    Text.SplitJoin(labels, ',');
  }
}

=== FILE: wrappers.dfy ===
/** Failure-carrying result types shared by every module of the model.
    The command-line tool aborts the process on an error; the model returns it instead. */
module Wrappers {

  datatype Option<+T> = None | Some(value: T)

  /** Either a computed value or the error the tool would have exited with. */
  datatype Result<+T, +E> = Ok(value: T) | Err(error: E) {

    predicate IsFailure() {
      Err?
    }

    function PropagateFailure<U>(): Result<U, E>
      requires Err?
    {
      Err(error)
    }

    function Extract(): T
      requires Ok?
    {
      value
    }
  }
}
